=== FILE: README.md ===
# Song fingerprinting core, modelled in Dafny

This project models the core of a small audio-fingerprinting song matcher.

- **Peak picking.** A spectrogram is scanned for local peaks. A cell is a peak when it lies strictly above an amplitude floor and no neighbour in a boolean neighbourhood mask is strictly larger. When the neighbourhood reaches at most half-way across the grid, neighbours that fall off the grid are mirrored back inside it; a larger neighbourhood can read outside the grid, which the model reports as an error.
- **Pairing.** Every peak (the anchor) is paired with its nearest other peaks. Each pair becomes a fingerprint key: the two inverted frequency bins and the time distance between them.
- **Index.** The keys of a song go into an inverted index from key to song ids. A query's keys are tallied per song.
- **Metadata.** A song's metadata record is built from the user's answers to y/n questions and looked up afterwards.

Modules, one per file:

- `Base` (`base.dfy`): `Option`, `Result`, `Abs`, `Min` and song ids.
- `Peaks` (`peaks.dfy`): `_peaks` and `local_peak_locations` from `find_peaks.py`.
- `Pairing` (`pairing.dfy`): `compute_distance`, `find_closest` and `create_fingerprints` from `find_peaks.py`.
- `FingerprintIndex` (`index.dfy`): `add_fingerprints` and `tally_fingerprints` from `manageFingerprints.py`, modelled with the behaviour their documentation describes.
- `IndexAsWritten` (`index_as_written.dfy`): the same two functions as their code reads, as far as their result is concerned. It holds the two defects listed under Findings.
- `SongMetadata` (`metadata.dfy`): `add_metadata`, `get_metadata` and `get_fingerprints` from `song_metadata.py`.

Interactive input becomes a parameter. `add_metadata` is a pure function of the sequence of lines the user types. Running out of lines is the `EndOfInput` error, which corresponds to Python's `EOFError`.

In the peak scan and the mask check, a failed assertion or an out-of-range read is an error value of a `Result`, never a precondition.

## Model

| member | source | states |
|---|---|---|
| Peaks.Examine | find_peaks.py:45-61 | The neighbour loop for one cell from offset `k` on. It skips the centre offset and mirrors an offset that leaves the grid, per axis. Reading outside `[-n, n)` on either axis is a fault. A strictly larger neighbour rejects the cell, and running off the end of the offsets keeps it. |
| Peaks.Mirror | find_peaks.py:50-56 | A neighbour coordinate whose offset reaches at most half-way across the axis lands inside the axis, mirrored if needed. The coordinate equals the centre's exactly when the offset is zero. |
| Peaks.PyIndex | find_peaks.py:58 | Array indexing accepts exactly the indices in `[-n, n)`. Negative indices count from the end, and an in-range index is itself. |
| Peaks.ExamineUnderFits | find_peaks.py:45-61 | When the offsets fit the grid, the neighbour loop never reads outside it. It keeps the cell exactly when no mirrored neighbour at a non-zero offset is strictly larger, so equal neighbours do not reject it. |
| Peaks.QualifiesIffPeak | find_peaks.py:41-61 | For offsets that fit, the scan's test on a cell never faults and holds exactly when the cell is a declarative peak. |
| Peaks.FindPeaks | find_peaks.py:14-62 | The scan fails exactly when some cell above the floor would read outside the grid. It then reports the first such cell in column-major order. Otherwise it returns, in column-major order, exactly the cells the loop keeps. When the offsets fit, that is exactly the set of peaks. |
| Peaks.StrictMaximumIsPeak | find_peaks.py:41-61 | A cell above the floor that is strictly larger than every other cell is a peak for any neighbourhood that fits. |
| Peaks.MaskRows | find_peaks.py:97 | The offsets listed from row `i` on are exactly the set mask entries of those rows, shifted, and they are sorted in row-major order as `np.where` lists them. |
| Peaks.MaskOffsets | find_peaks.py:97-103 | The mask is accepted exactly when both its dimensions are odd, and otherwise the error is `EvenMask`. The offsets are exactly the set entries re-centred on the middle of the mask, each within half the mask's size, in row-major order. |
| Peaks.MaskPeakAgrees | find_peaks.py:97-105 | For an odd mask at most one larger than the grid, the peak test on the centred offsets is the same as the peak test stated directly on the mask entries. |
| Peaks.LocalPeakLocations | find_peaks.py:68-105 | An even mask dimension fails with `EvenMask`. For an odd mask, the call succeeds exactly when no cell above the floor would read outside the grid under the centred offsets. Otherwise it reports the first such cell in column-major order. On success, the result is sorted in column-major order and holds exactly the cells the scan keeps under the centred offsets. For an odd mask that fits, that is exactly the set of mask peaks. |
| Peaks.PeakIsMaskPeak | find_peaks.py:97-105 | A cell that dominates every centred offset of an odd mask at most one larger than the grid is a peak on the mask entries. |
| Peaks.MaskPeakIsPeak | find_peaks.py:97-105 | A peak on the mask entries dominates every centred offset of the mask. |
| Pairing.SqDist | find_peaks.py:113-125 | The squared Euclidean distance between two peaks, the sum of the squared row and column differences, standing in for the square root that `compute_distance` takes. |
| Pairing.SqDistZero | find_peaks.py:113-125 | The distance between two peaks is zero exactly when they coincide. |
| Pairing.SqDistSymmetric | find_peaks.py:125 | The distance from `a` to `b` equals the distance from `b` to `a`. |
| Pairing.Insert | find_peaks.py:152 | Inserting an index into a sorted index list keeps it sorted, adds exactly that index and grows the list by one. |
| Pairing.ArgSort | find_peaks.py:152 | The result lists every index `0 .. n-1` exactly once, ordered by ascending distance with ties by ascending index. |
| Pairing.AnchorSortsFirst | find_peaks.py:149-153 | With distinct peaks, the anchor itself comes first in the argsort of its distances. |
| Pairing.FindClosest | find_peaks.py:131-153 | The result has `min(fanout, n - 1)` valid and pairwise different indices, in non-decreasing distance from the anchor. |
| Pairing.ClosestAreNearest | find_peaks.py:131-153 | With distinct peaks, the anchor is never among its own targets, and no peak left out is strictly nearer than a chosen one. |
| Pairing.Key | find_peaks.py:181 | The key of an anchor and a target: `numFreqs - 1` minus each peak's frequency bin, then the absolute difference of their time frames. |
| Pairing.PairAnchor | find_peaks.py:175-182 | One anchor contributes one key per chosen target, nearest first. Each key holds both inverted frequency bins and the time distance. The bins lie in `[0, numFreqs)` when the peaks' rows do. |
| Pairing.CreateFingerprints | find_peaks.py:159-183 | The key list is the anchors' key groups in anchor order, each group of `min(4, n - 1)` keys being exactly the keys of that anchor. All bins are in range when the peaks' rows are. |
| FingerprintIndex.AddFingerprints | manageFingerprints.py:3-26 | After registration, a key is in the index exactly when it was there before or the song lists it. |
| FingerprintIndex.AddFingerprintsPostings | manageFingerprints.py:21-25 | Every key's posting list is its old list followed by one copy of the song id per occurrence of the key among the song's fingerprints. A fresh key listed once therefore maps to exactly `[song]`, and an unlisted key is unchanged. |
| FingerprintIndex.AddInBatches | manageFingerprints.py:21-26 | Registering a fingerprint list in two parts gives the same index as registering it whole. |
| FingerprintIndex.CountAll | manageFingerprints.py:39-43 | Counting a list of ids adds each id's number of occurrences to its tally, and creates the tallies of new ids. |
| FingerprintIndex.TallyFingerprints | manageFingerprints.py:29-44 | The tally succeeds exactly when every query key is in the index; otherwise the error names the first missing key. On success, a song is tallied exactly when it appears in a looked-up posting list, with its number of appearances. |
| FingerprintIndex.TallySumIsTotal | manageFingerprints.py:36-44 | The tallies sum to the total length of the posting lists looked up. |
| FingerprintIndex.SelfMatch | manageFingerprints.py:3-44 | A song with pairwise different fingerprints is registered into an empty index and queried with those same fingerprints. It then scores one hit per fingerprint and no other song scores. |
| IndexAsWritten.AddFingerprintsAsWritten | manageFingerprints.py:21-26 | Registration as the code reads. On success the keys are the old keys plus the listed ones. A failure is an `AttributeError` on one of the listed keys. |
| IndexAsWritten.AsWrittenAgreesOnFreshKeys | manageFingerprints.py:21-26 | For pairwise different fingerprints that are all new to the index, registration as written gives the same index as the corrected one. |
| IndexAsWritten.SharedFingerprintLosesPostings | manageFingerprints.py:21-25 | Two songs share one key. In the code as written, the second registration replaces the key's list with `None`. The corrected model keeps both song ids in registration order. |
| IndexAsWritten.ThirdRegistrationRaises | manageFingerprints.py:22-23 | In the code as written, a third registration of that key raises `AttributeError`. |
| IndexAsWritten.TallyAsWritten | manageFingerprints.py:36-44 | The tally as the code reads. An empty query gives `{}`, which is also the corrected tally. Any non-empty query raises, because line 38 hashes the whole list. |
| IndexAsWritten.TallyAsWrittenRaises | manageFingerprints.py:37-38 | In the code as written, a one-key query against an index holding that key raises. The corrected model tallies one hit for the song. |
| SongMetadata.Get | song_metadata.py:111-112 | Dictionary lookup finds a value exactly when the category is among the record's keys. |
| SongMetadata.GetFindsStoredPair | song_metadata.py:111-112 | In a record with unique categories, lookup returns `v` for a category exactly when that pair is stored. |
| SongMetadata.KeysAt | song_metadata.py:114 | The key list holds each pair's category at the pair's position. |
| SongMetadata.Put | song_metadata.py:45 | After an assignment, the category holds the assigned value. |
| SongMetadata.PutKeys | song_metadata.py:45 | Assigning an existing category keeps the key order. A new category is appended at the end. |
| SongMetadata.PutKeeps | song_metadata.py:45 | Assignment leaves every other category's value unchanged. |
| SongMetadata.PutKeepsUniqueKeys | song_metadata.py:45 | Assignment keeps the categories free of duplicates. |
| SongMetadata.AnswersAreLowerCased | song_metadata.py:35 | An answer counts as yes or no exactly when its lower-cased form is `y` or `n`. |
| SongMetadata.RecognisedAnswers | song_metadata.py:35 | Exactly `y` and `Y` mean yes, and exactly `n` and `N` mean no. |
| SongMetadata.AnswerUnique | song_metadata.py:35-41 | A question ends in at most one way. |
| SongMetadata.AskLoop | song_metadata.py:35-41 | The re-prompt loop stops at the first recognised answer, or gives up on the fifth unrecognised one. It fails exactly when the lines run out first. |
| SongMetadata.AskYesNo | song_metadata.py:32-41 | A question's result is the unique way it ends from its first line. It fails exactly when the lines run out before the question is settled. |
| SongMetadata.GivesUpAfterMaxAsks | song_metadata.py:35-41 | After five unrecognised answers, the question ends on the fifth and reads nothing further, whatever the later lines say. |
| SongMetadata.AskField | song_metadata.py:31-45 | A category's question fails when the lines run out before it is settled. It never reads past the input. |
| SongMetadata.AskFieldKeeps | song_metadata.py:43-45 | One category's question leaves every other category alone. |
| SongMetadata.AskFieldFails | song_metadata.py:31-45 | A category's question fails exactly when its lines run out before it is settled, or when it is answered yes on the last line. |
| SongMetadata.AskFieldAnswer | song_metadata.py:43-45 | A yes stores the next line under the category and fails only when no line is left for it. Any other ending stores nothing and reads no further. |
| SongMetadata.AskFieldKeys | song_metadata.py:43-45 | One question keeps the key list in place, adds at most its own category, and keeps keys free of duplicates. |
| SongMetadata.AskFirst | song_metadata.py:31-77 | The questions about the first `n` categories never read past the input. If the lines run out before the first of them is settled, they fail. |
| SongMetadata.AskFirstKeeps | song_metadata.py:47-77 | The question about category `n - 1` succeeds only after the earlier ones did, and leaves every other category alone. |
| SongMetadata.LaterQuestionsKeep | song_metadata.py:47-77 | Questions about other categories leave a category's value as it was. |
| SongMetadata.ExtendsStep | song_metadata.py:43-77 | One more question keeps a key list that extends the start, in place, by asked categories only. |
| SongMetadata.AskFirstKeys | song_metadata.py:28-77 | The questions keep the starting keys in place and add only categories they asked about, each at most once. |
| SongMetadata.CategoriesDistinct | song_metadata.py:29-77 | `title`, `artist`, `genre` and `fingerprints` are pairwise different categories. |
| SongMetadata.AddMetadata | song_metadata.py:1-79 | The record holds the fingerprint count under `fingerprints`, and the flow never reads past the input. When the lines run out before the first question is settled, the call fails. |
| SongMetadata.AskFirstFails | song_metadata.py:31-77 | The first `n` questions fail exactly when some question among them is reached with the earlier ones answered and cannot be completed. |
| SongMetadata.AddMetadataFails | song_metadata.py:31-79 | `add_metadata` raises exactly when one of its three questions is reached and either runs out of lines before it is settled or is answered yes on the last line, leaving no line for the value. |
| SongMetadata.AllNoKeepsCount | song_metadata.py:28-79 | Answering no to all three questions succeeds after three lines, and the record holds only the fingerprint count. |
| SongMetadata.AddMetadataKeys | song_metadata.py:28-79 | The record lists `fingerprints` first, then only the three categories, each at most once. |
| SongMetadata.AddMetadataCategory | song_metadata.py:31-77 | A category is in the record exactly when its question ended in yes. It then holds the line typed right after that answer. |
| SongMetadata.GetMetadata | song_metadata.py:82-119 | An unknown song gives the song-not-found message. With no query, the reply is the whole record. A query gives the stored value exactly when the category is present, and otherwise the message naming the query and listing the available categories. |
| SongMetadata.ErrorsAreMarked | song_metadata.py:114-119 | Every error message starts with `Error: `. |
| SongMetadata.GetFingerprints | song_metadata.py:121-143 | The reply is the stored fingerprint count when the song and its count are present, and 0 otherwise. |
| SongMetadata.RegisteredMetadataRoundTrip | song_metadata.py:1-143 | A song's record from `add_metadata` is stored under its id. Both lookups then return the fingerprint count, the whole record and the title exactly as entered. A title answered no is reported missing. |
| SongMetadata.RegisteringLeavesOthers | song_metadata.py:108-143 | Storing one song's record changes no lookup of any other song. |

## Left out

- `conversion.py`, `interface_functions.py` and `main.py` are not part of this model. They hold audio loading, spectrogram computation, file persistence and the command-line flow.
- The test block at `find_peaks.py:191-204` is left out. It draws random data and prints.
- Printing and the prompts' text are left out because they have no effect on results. The `@njit` compilation does affect one case, an out-of-range read, which is described under Peaks.FindPeaks below.
- The `sampling_rate` parameter of `create_fingerprints` is left out because it is unused.
- Peaks.FindPeaks: Numba does not bounds-check, so a mirrored read past the end of the grid is undefined there. The model returns `IndexOutOfRange` for it instead of an arbitrary value.
- Peaks.FindPeaks: `amp_min` is a float in the source but an integer here. For integer amplitudes, comparing with a real threshold is the same as comparing with its floor.
- Peaks.FindPeaks: the spectrogram amplitudes are floating-point numbers in the source, and the model uses integers. The scan only compares amplitudes, so integers stand for finite floats; NaN amplitudes, for which every comparison is false, are not modelled.
- Pairing.FindClosest: the anchor index must be in range, as a precondition. In the source an index past the end of a non-empty peak list raises `IndexError`, an empty list gives `[]` whatever the index, and a negative index counts from the end; the model covers none of these out-of-range cases (its index is a natural number), because `create_fingerprints` only ever passes in-range indices; `Pairing.Dists` and `Pairing.PairAnchor` carry the same precondition for the same reason.
- Pairing.FindClosest: `np.argsort` does not promise an order among equal distances. The model fixes a stable order, ties broken by list position.
- Pairing.SqDistZero: `compute_distance` returns a floating-point square root. The model uses the squared integer distance, which orders pairs the same way.
- SongMetadata.GetMetadata: `str(dict)` is abstracted as the `Rendered(record)` reply. The key list in the missing-category message quotes each key with single quotes and does not model Python's escaping inside keys.
- SongMetadata.AnswersAreLowerCased: `str.lower` is modelled on ASCII letters only.
- FingerprintIndex.TallyFingerprints: a query key missing from the index is an error, because the dictionary lookup at manageFingerprints.py:38 raises `KeyError` (in the corrected reading of that line).
- IndexAsWritten.AddFingerprintsAsWritten: when registration raises `AttributeError`, the source has already changed the dictionary in place for the song's earlier keys. The model returns only the error and does not describe that partially updated dictionary.
- `manageFingerprints.py` ends with an unfinished `def` at line 46, which is left out.
- The uuid-based song ids are left out; ids are plain natural numbers.
- Saving and loading the databases happen outside the modelled files and are left out. Nothing in the source stops a song from being registered twice; the model does not add such a guard either.

## Findings

| source | as written | input that shows it | evidently intended | confidence | as-written member | corrected member |
|---|---|---|---|---|---|---|
| manageFingerprints.py:23 | For a key already present, the code stores the return value of the in-place list append, which is `None`. | Songs 1 and 2 share key `k`. After registering both, `k` maps to `None`, and registering a third song with `k` raises `AttributeError`. | Append the song id to the key's posting list, keeping the earlier ids. | high, not executed | IndexAsWritten.AddFingerprintsAsWritten | manageFingerprints.py:21-26 | Registration as the code reads. On success the keys are the old keys plus the listed ones. A failure is an `AttributeError` on one of the listed keys. |
| IndexAsWritten.AsWrittenAgreesOnFreshKeys | manageFingerprints.py:21-26 | For pairwise different fingerprints that are all new to the index, registration as written gives the same index as the corrected one. |
| IndexAsWritten.SharedFingerprintLosesPostings | FingerprintIndex.AddFingerprintsPostings |
| manageFingerprints.py:38 | The loop body indexes the database with the whole query list instead of the current pairing. A list is unhashable, so every non-empty query raises `TypeError`. | The query `[k]` against an index mapping `k` to `[s]` raises instead of tallying one hit for `s`. | Look up each pairing in turn and count one hit per posting. | high, not executed | IndexAsWritten.TallyAsWritten | manageFingerprints.py:36-44 | The tally as the code reads. An empty query gives `{}`, which is also the corrected tally. Any non-empty query raises, because line 38 hashes the whole list. |
| IndexAsWritten.TallyAsWrittenRaises | FingerprintIndex.TallyFingerprints |

=== FILE: base.dfy ===
/** Small shared vocabulary: optional values, results with an error
    value, absolute value and the song identifier type. */
module Base {

  /** A value that may be missing (Python's `None`). */
  datatype Option<+T> = None | Some(value: T)

  /** The outcome of an operation that can raise: `Err` carries what the
      source would raise instead of returning. Usable with `:-`. */
  datatype Result<+T, +E> = Ok(value: T) | Err(error: E) {

    predicate IsFailure() {
      Err?
    }

    function PropagateFailure<U>(): Result<U, E>
      requires Err?
    {
      Err(error)
    }

    function Extract(): T
      requires Ok?
    {
      value
    }
  }

  /** No element occurs twice in the list. */
  predicate NoDuplicates<T(==)>(s: seq<T>) {
    forall i, j :: 0 <= i < j < |s| ==> s[i] != s[j]
  }

  function Abs(x: int): nat {
    if x < 0 then -x else x
  }

  function Min(a: int, b: int): int {
    if a <= b then a else b
  }

  /** Song identifiers are `uuid.uuid1()` UUID objects, which compare equal
      exactly when their 128-bit values do. The model only needs equality,
      so a natural number stands for that value. */
  type SongId = nat
}

=== FILE: index.dfy ===
/** The inverted fingerprint index and the per-song tally of a query
    (`add_fingerprints` and `tally_fingerprints`), with the behaviour their
    documentation describes: get-or-append registration and a lookup per
    query fingerprint. */
module FingerprintIndex {
  import opened Base
  import opened Pairing

  /** Fingerprint key to posting list: the ids of the songs registered under
      that key, oldest first, one entry per occurrence of the key in a
      registered song. */
  type Database = map<Fingerprint, seq<SongId>>

  /** Song id to the number of hits a query scored for it. */
  type Tallies = map<SongId, nat>

  /** The posting list of `k`, empty when `k` was never registered. */
  function Postings(db: Database, k: Fingerprint): seq<SongId> {
    if k in db then db[k] else []
  }

  /** `n` copies of `s`. */
  function Repeat(s: SongId, n: nat): (r: seq<SongId>)
    ensures |r| == n
    ensures forall i :: 0 <= i < n ==> r[i] == s
  {
    if n == 0 then [] else [s] + Repeat(s, n - 1)
  }

  /** `add_fingerprints`: append `song` to the posting list of every
      fingerprint of the song, creating the list when the key is new. */
  function AddFingerprints(fps: seq<Fingerprint>, song: SongId, db: Database): (r: Database)
    ensures forall k :: k in r <==> k in db || k in fps
    decreases |fps|
  {
    if fps == [] then db
    else
      var k := fps[0];
      assert forall j :: j in fps <==> j == k || j in fps[1..];
      AddFingerprints(fps[1..], song, db[k := Postings(db, k) + [song]])
  }

  /** How many times `k` occurs in `fps`. */
  function Occurrences(fps: seq<Fingerprint>, k: Fingerprint): nat {
    if fps == [] then 0 else (if fps[0] == k then 1 else 0) + Occurrences(fps[1..], k)
  }

  /** After registration the posting list of any key `k` is its old list
      followed by one `song` per occurrence of `k` among the fingerprints:
      a fresh key listed once maps to exactly `[song]`, an existing key keeps
      its earlier entries and gains `song` at its end, and a key the song
      does not list is unchanged. */
  lemma {:induction false} AddFingerprintsPostings(fps: seq<Fingerprint>, song: SongId, db: Database, k: Fingerprint)
    ensures Postings(AddFingerprints(fps, song, db), k) == Postings(db, k) + Repeat(song, Occurrences(fps, k))
    decreases |fps|
  {
    if fps == [] {
      assert Repeat(song, 0) == [];
    } else {
      var j, rest := fps[0], fps[1..];
      var db' := db[j := Postings(db, j) + [song]];
      AddFingerprintsPostings(rest, song, db', k);
      var m := Occurrences(rest, k);
      if j == k {
        assert Repeat(song, m + 1) == [song] + Repeat(song, m);
      } else {
        assert Postings(db', k) == Postings(db, k);
      }
    }
  }

  /** Registering a list in two parts is the same as registering it whole. */
  lemma {:induction false} AddInBatches(a: seq<Fingerprint>, b: seq<Fingerprint>, song: SongId, db: Database)
    ensures AddFingerprints(a + b, song, db) == AddFingerprints(b, song, AddFingerprints(a, song, db))
    decreases |a|
  {
    if a == [] {
      assert a + b == b;
    } else {
      var k := a[0];
      assert (a + b)[0] == k && (a + b)[1..] == a[1..] + b;
      AddInBatches(a[1..], b, song, db[k := Postings(db, k) + [song]]);
    }
  }

  datatype TallyError = MissingKey(key: Fingerprint)  // the lookup raises KeyError

  /** Every posting list a query looks up, concatenated in query order. */
  function Looked(pairings: seq<Fingerprint>, db: Database): seq<SongId>
    requires forall p :: p in pairings ==> p in db
  {
    if pairings == [] then []
    else Looked(pairings[..|pairings| - 1], db) + db[pairings[|pairings| - 1]]
  }

  /** Count one more hit in `t` for every entry of `ids`. */
  function CountAll(t: Tallies, ids: seq<SongId>): (r: Tallies)
    ensures forall s :: s in r <==> s in t || s in ids
    ensures forall s :: s in r ==> r[s] == (if s in t then t[s] else 0) + multiset(ids)[s]
    decreases |ids|
  {
    if ids == [] then t
    else
      var s := ids[0];
      assert ids == [s] + ids[1..];
      CountAll(t[s := if s in t then t[s] + 1 else 1], ids[1..])
  }

  /** `tally_fingerprints`: for every query fingerprint, in order, look up
      its posting list and count one hit per entry. A fingerprint missing
      from the database raises, at the first one missing. */
  function TallyFingerprints(pairings: seq<Fingerprint>, db: Database): (r: Result<Tallies, TallyError>)
    ensures pairings == [] ==> r == Ok(map[])
    ensures r.Ok? <==> forall p :: p in pairings ==> p in db
    ensures r.Err? ==>
      && r.error.key !in db
      && exists i :: 0 <= i < |pairings| && pairings[i] == r.error.key
           && forall j :: 0 <= j < i ==> pairings[j] in db
    ensures r.Ok? ==> (forall p :: p in pairings ==> p in db) && forall s ::
      && (s in r.value <==> s in Looked(pairings, db))
      && (s in r.value ==> r.value[s] == multiset(Looked(pairings, db))[s] >= 1)
    decreases |pairings|
  {
    if pairings == [] then Ok(map[])
    else
      var n := |pairings| - 1;
      assert pairings == pairings[..n] + [pairings[n]];
      var front :- TallyFingerprints(pairings[..n], db);
      if pairings[n] !in db then Err(MissingKey(pairings[n]))
      else Ok(CountAll(front, db[pairings[n]]))
  }

  /** The sum of the tallies. */
  ghost function SumValues(t: Tallies): nat
    decreases |t|
  {
    if t == map[] then 0
    else
      var s :| s in t;
      t[s] + SumValues(t - {s})
  }

  /** The sum can be split at any key. */
  lemma SumValuesRemove(t: Tallies, s: SongId)
    requires s in t
    ensures SumValues(t) == t[s] + SumValues(t - {s})
    decreases |t|
  {
    var s' :| s' in t && SumValues(t) == t[s'] + SumValues(t - {s'});
    if s' != s {
      SumValuesRemove(t - {s'}, s);
      SumValuesRemove(t - {s}, s');
      assert t - {s'} - {s} == t - {s} - {s'};
    }
  }

  /** One hit fewer for `x`, dropping `x` when its last hit goes. */
  function Decrement(t: Tallies, x: SongId): (r: Tallies)
    requires x in t && t[x] >= 1
    ensures SumValues(r) + 1 == SumValues(t)
  {
    SumValuesRemove(t, x);
    if t[x] == 1 then t - {x}
    else
      var r := t[x := t[x] - 1];
      SumValuesRemove(r, x);
      assert r - {x} == t - {x};
      r
  }

  /** Tallies that count the entries of `rest + [x]`, less one hit for `x`,
      count the entries of `rest`. */
  lemma DecrementCounts(t: Tallies, rest: seq<SongId>, x: SongId)
    requires forall s :: s in t <==> s in rest + [x]
    requires forall s :: s in t ==> t[s] == multiset(rest + [x])[s]
    ensures x in t && t[x] >= 1
    ensures forall s :: s in Decrement(t, x) <==> s in rest
    ensures forall s :: s in Decrement(t, x) ==> Decrement(t, x)[s] == multiset(rest)[s]
  {
  }

  /** Tallies that count the entries of `ids` sum to the length of `ids`. */
  lemma {:induction false} SumOfCounts(t: Tallies, ids: seq<SongId>)
    requires forall s :: s in t <==> s in ids
    requires forall s :: s in t ==> t[s] == multiset(ids)[s]
    ensures SumValues(t) == |ids|
    decreases |ids|
  {
    if ids == [] {
      assert t == map[];
    } else {
      var n := |ids| - 1;
      var rest := ids[..n];
      assert ids == rest + [ids[n]];
      DecrementCounts(t, rest, ids[n]);
      SumOfCounts(Decrement(t, ids[n]), rest);
    }
  }

  /** The tallies of a query sum to the total length of the posting lists it
      looked up: every entry of every list scores exactly one hit. */
  lemma TallySumIsTotal(pairings: seq<Fingerprint>, db: Database)
    requires forall p :: p in pairings ==> p in db
    ensures TallyFingerprints(pairings, db).Ok?
    ensures SumValues(TallyFingerprints(pairings, db).value) == |Looked(pairings, db)|
  {
    var t := TallyFingerprints(pairings, db).value;
    forall s | s in t
      ensures t[s] == multiset(Looked(pairings, db))[s]
    {
    }
    SumOfCounts(t, Looked(pairings, db));
  }

  /** A query whose fingerprints all hold the single entry `song` looks up
      exactly one `song` per fingerprint. */
  lemma {:induction false} LookedSingleSong(pairings: seq<Fingerprint>, db: Database, song: SongId)
    requires forall p :: p in pairings ==> p in db && db[p] == [song]
    ensures Looked(pairings, db) == Repeat(song, |pairings|)
    decreases |pairings|
  {
    if pairings != [] {
      var n := |pairings| - 1;
      assert forall p :: p in pairings[..n] ==> p in pairings;
      LookedSingleSong(pairings[..n], db, song);
    }
  }

  /** Registering a song whose fingerprints are pairwise different into an
      empty index, then querying with those same fingerprints, credits that
      song with one hit per fingerprint and credits no other song. */
  lemma SelfMatch(fps: seq<Fingerprint>, song: SongId)
    requires |fps| > 0
    requires NoDuplicates(fps)
    ensures TallyFingerprints(fps, AddFingerprints(fps, song, map[])) == Ok(map[song := |fps|])
  {
    var db := AddFingerprints(fps, song, map[]);
    forall p | p in fps
      ensures p in db && db[p] == [song]
    {
      OccursOnce(fps, p);
      AddFingerprintsPostings(fps, song, map[], p);
      assert Repeat(song, 1) == [song];
    }
    LookedSingleSong(fps, db, song);
    MultisetOfRepeat(song, |fps|);
    var looked := Repeat(song, |fps|);
    assert looked[0] == song;
    assert forall s :: s in looked <==> s == song;
    var r := TallyFingerprints(fps, db);
    assert r.Ok?;
    assert r.value.Keys == {song};
    assert r.value[song] == |fps|;
    assert r.value == map[song := |fps|];
  }

  /** A listed key of a list without repeats occurs in it once. */
  lemma {:induction false} OccursOnce(fps: seq<Fingerprint>, k: Fingerprint)
    requires NoDuplicates(fps)
    requires k in fps
    ensures Occurrences(fps, k) == 1
  {
    if fps[0] == k {
      NotOccurring(fps[1..], k);
    } else {
      OccursOnce(fps[1..], k);
    }
  }

  lemma {:induction false} NotOccurring(fps: seq<Fingerprint>, k: Fingerprint)
    requires k !in fps
    ensures Occurrences(fps, k) == 0
  {
    if fps != [] {
      NotOccurring(fps[1..], k);
    }
  }

  lemma {:induction false} MultisetOfRepeat(s: SongId, n: nat)
    ensures multiset(Repeat(s, n)) == multiset{s}[s := n]
  {
    if n > 0 {
      MultisetOfRepeat(s, n - 1);
    }
  }
}

=== FILE: index_as_written.dfy ===
/** `add_fingerprints` and `tally_fingerprints` as their code reads,
    with the two defects that make them diverge from their documentation.
    The rest of the model uses the corrected definitions of
    `FingerprintIndex`; the lemmas here exhibit the divergence. */
module IndexAsWritten {
  import opened Base
  import opened Pairing
  import FingerprintIndex

  /** A database as Python sees it after the defect: a posting list, or the
      `None` that was stored in place of one. */
  type PyDatabase = map<Fingerprint, Option<seq<SongId>>>

  datatype PyError =
    | AttributeError(key: Fingerprint) // appending to the `None` stored under `key`
    | UnhashableList                   // a list used as a dictionary key

  /** The view of a well-formed database in which every key holds a list. */
  function Lift(db: FingerprintIndex.Database): PyDatabase {
    map k | k in db :: Some(db[k])
  }

  /** `add_fingerprints` as written: a new key gets a one-element list, but
      an existing key gets the result of the in-place `append`, which is
      `None`; appending to that `None` later raises. */
  function AddFingerprintsAsWritten(fps: seq<Fingerprint>, song: SongId, db: PyDatabase): (r: Result<PyDatabase, PyError>)
    ensures r.Ok? ==> forall k :: k in r.value <==> k in db || k in fps
    ensures r.Err? ==> r.error.AttributeError? && r.error.key in fps
    decreases |fps|
  {
    if fps == [] then Ok(db)
    else
      var k := fps[0];
      assert forall j :: j in fps <==> j == k || j in fps[1..];
      if k in db then
        if db[k].None? then Err(AttributeError(k))
        else AddFingerprintsAsWritten(fps[1..], song, db[k := None])
      else AddFingerprintsAsWritten(fps[1..], song, db[k := Some([song])])
  }

  /** When the song's fingerprints are pairwise different and all new to the
      index, registration as written agrees with the documented one. */
  lemma {:induction false} AsWrittenAgreesOnFreshKeys(fps: seq<Fingerprint>, song: SongId, db: FingerprintIndex.Database)
    requires NoDuplicates(fps)
    requires forall i :: 0 <= i < |fps| ==> fps[i] !in db
    ensures AddFingerprintsAsWritten(fps, song, Lift(db)) == Ok(Lift(FingerprintIndex.AddFingerprints(fps, song, db)))
    decreases |fps|
  {
    if fps != [] {
      var k := fps[0];
      var db' := db[k := FingerprintIndex.Postings(db, k) + [song]];
      assert FingerprintIndex.Postings(db, k) == [];
      assert Lift(db)[k := Some([song])] == Lift(db') by {
        assert db'[k] == [song];
        forall j ensures j in Lift(db') <==> j in Lift(db)[k := Some([song])] {
        }
      }
      forall i | 0 <= i < |fps[1..]|
        ensures fps[1..][i] !in db'
      {
        assert fps[1..][i] == fps[i + 1] && fps[i + 1] != fps[0];
      }
      AsWrittenAgreesOnFreshKeys(fps[1..], song, db');
    }
  }

  /** Two songs sharing one fingerprint: as written, the second registration
      replaces the key's list by `None`, losing both ids; as documented, the
      list holds both songs in registration order. */
  lemma SharedFingerprintLosesPostings(k: Fingerprint, s1: SongId, s2: SongId)
    ensures FingerprintIndex.AddFingerprints([k], s1, map[]) == map[k := [s1]]
    ensures AddFingerprintsAsWritten([k], s2, Lift(map[k := [s1]])) == Ok(map[k := None])
    ensures FingerprintIndex.AddFingerprints([k], s2, map[k := [s1]]) == map[k := [s1, s2]]
  {
    assert [k][1..] == [];
    assert FingerprintIndex.Postings(map[], k) + [s1] == [s1];
    assert FingerprintIndex.Postings(map[k := [s1]], k) + [s2] == [s1, s2];
    var py := Lift(map[k := [s1]]);
    assert py == map[k := Some([s1])];
    assert py[k := None] == map[k := None];
    assert AddFingerprintsAsWritten([k], s2, py) == AddFingerprintsAsWritten([], s2, py[k := None]);
  }

  /** A third song with the same fingerprint then makes registration raise. */
  lemma ThirdRegistrationRaises(k: Fingerprint, s3: SongId)
    ensures AddFingerprintsAsWritten([k], s3, map[k := None]) == Err(AttributeError(k))
  {
  }

  /** `tally_fingerprints` as written: the loop body looks up the whole list
      of pairings instead of the current pairing, and a list cannot be a
      dictionary key, so every non-empty query raises. */
  function TallyAsWritten(pairings: seq<Fingerprint>, db: FingerprintIndex.Database): (r: Result<FingerprintIndex.Tallies, PyError>)
    ensures r.Ok? <==> pairings == []
    ensures r.Err? ==> r.error == UnhashableList
    ensures r.Ok? ==> FingerprintIndex.TallyFingerprints(pairings, db) == Ok(r.value)
  {
    if pairings == [] then Ok(map[]) else Err(UnhashableList)
  }

  /** A one-fingerprint query against a database that holds it: as written
      the tally raises; as documented the song scores one hit. */
  lemma TallyAsWrittenRaises(k: Fingerprint, s: SongId)
    ensures TallyAsWritten([k], map[k := [s]]).Err?
    ensures FingerprintIndex.TallyFingerprints([k], map[k := [s]]) == Ok(map[s := 1])
  {
    var db := map[k := [s]];
    assert FingerprintIndex.Looked([k], db) == [s] by {
      assert [k][..0] == [];
    }
    assert [k][..0] == [];
    assert FingerprintIndex.TallyFingerprints([], db) == Ok(map[]);
    var t := FingerprintIndex.CountAll(map[], [s]);
    assert t.Keys == {s};
    assert t == map[s := 1];
  }
}

=== FILE: metadata.dfy ===
/** Song metadata: the interactive `add_metadata` flow, modelled as a pure
    function of the sequence of lines the user types, and the two lookups
    `get_metadata` and `get_fingerprints`. */
module SongMetadata {
  import opened Base

  /** A metadata value: the fingerprint count, or text the user typed. */
  datatype Value = Count(n: int) | Text(s: string)

  /** One song's metadata dictionary: category to value, in insertion order
      as a Python dictionary keeps it. */
  type Record = seq<(string, Value)>

  /** The categories of a record, in insertion order. */
  function Keys(rec: Record): (r: seq<string>)
    ensures |r| == |rec|
  {
    if rec == [] then [] else [rec[0].0] + Keys(rec[1..])
  }

  /** Adding a name not yet listed keeps a list free of duplicates. */
  lemma AppendNew(names: seq<string>, name: string)
    requires NoDuplicates(names) && name !in names
    ensures NoDuplicates(names + [name])
  {
  }

  /** No category occurs twice, as in any dictionary. */
  predicate UniqueKeys(rec: Record) {
    NoDuplicates(Keys(rec))
  }

  /** Dictionary lookup: the value stored under `key`, if any. */
  function Get(rec: Record, key: string): (r: Option<Value>)
    ensures r.Some? <==> key in Keys(rec)
  {
    if rec == [] then None
    else if rec[0].0 == key then Some(rec[0].1)
    else
      assert forall k :: k in Keys(rec) <==> k == rec[0].0 || k in Keys(rec[1..]);
      Get(rec[1..], key)
  }

  /** In a record with unique categories, lookup finds exactly the stored
      pairs. */
  lemma {:induction false} GetFindsStoredPair(rec: Record, key: string, v: Value)
    requires UniqueKeys(rec)
    ensures Get(rec, key) == Some(v) <==> (key, v) in rec
  {
    if rec != [] {
      assert Keys(rec) == [rec[0].0] + Keys(rec[1..]);
      assert NoDuplicates(Keys(rec[1..])) by {
        forall i, j | 0 <= i < j < |rec| - 1
          ensures Keys(rec[1..])[i] != Keys(rec[1..])[j]
        {
          assert Keys(rec)[i + 1] != Keys(rec)[j + 1];
        }
      }
      GetFindsStoredPair(rec[1..], key, v);
      if rec[0].0 == key && (key, v) in rec {
        var i :| 0 <= i < |rec| && rec[i] == (key, v);
        KeysAt(rec, i);
        assert Keys(rec)[0] == key;
      }
    }
  }

  /** Entry `i` of the key list is the category of pair `i`. */
  lemma {:induction false} KeysAt(rec: Record, i: nat)
    requires i < |rec|
    ensures Keys(rec)[i] == rec[i].0
  {
    if i > 0 {
      KeysAt(rec[1..], i - 1);
    }
  }

  /** Dictionary assignment `rec[key] = v`: an existing category keeps its
      place and takes the new value, a new category goes at the end. */
  function Put(rec: Record, key: string, v: Value): (r: Record)
    ensures Get(r, key) == Some(v)
  {
    if rec == [] then [(key, v)]
    else if rec[0].0 == key then [(key, v)] + rec[1..]
    else
      var t := Put(rec[1..], key, v);
      assert ([rec[0]] + t)[1..] == t;
      [rec[0]] + t
  }

  /** Assignment keeps the categories in place and appends a new one. */
  lemma {:induction false} PutKeys(rec: Record, key: string, v: Value)
    ensures key in Keys(rec) ==> Keys(Put(rec, key, v)) == Keys(rec)
    ensures key !in Keys(rec) ==> Keys(Put(rec, key, v)) == Keys(rec) + [key]
  {
    if rec != [] && rec[0].0 != key {
      var t := Put(rec[1..], key, v);
      PutKeys(rec[1..], key, v);
      assert ([rec[0]] + t)[1..] == t;
      assert Keys([rec[0]] + t) == [rec[0].0] + Keys(t);
      assert Keys(rec) == [rec[0].0] + Keys(rec[1..]);
      assert key in Keys(rec) <==> key in Keys(rec[1..]);
      if key !in Keys(rec) {
        assert [rec[0].0] + (Keys(rec[1..]) + [key]) == ([rec[0].0] + Keys(rec[1..])) + [key];
      }
    } else if rec == [] {
      assert Keys([(key, v)]) == [key];
    } else {
      assert Keys([(key, v)] + rec[1..]) == [key] + Keys(rec[1..]);
    }
  }

  /** Assignment leaves every other category alone. */
  lemma {:induction false} PutKeeps(rec: Record, key: string, v: Value, k: string)
    requires k != key
    ensures Get(Put(rec, key, v), k) == Get(rec, k)
  {
    if rec != [] && rec[0].0 != key {
      PutKeeps(rec[1..], key, v, k);
      assert ([rec[0]] + Put(rec[1..], key, v))[1..] == Put(rec[1..], key, v);
    }
  }

  /** Assignment keeps the categories unique. */
  lemma PutKeepsUniqueKeys(rec: Record, key: string, v: Value)
    requires UniqueKeys(rec)
    ensures UniqueKeys(Put(rec, key, v))
  {
    PutKeys(rec, key, v);
    if key !in Keys(rec) {
      AppendNew(Keys(rec), key);
    }
  }

  /** ASCII lower-casing of one character. */
  function LowerChar(c: char): char {
    if 'A' <= c <= 'Z' then (c as int + 32) as char else c
  }

  /** `str.lower` on ASCII text. */
  function Lower(s: string): string {
    seq(|s|, i requires 0 <= i < |s| => LowerChar(s[i]))
  }

  /** The answer reads `y` once lower-cased. */
  predicate IsYes(s: string) {
    |s| == 1 && LowerChar(s[0]) == 'y'
  }

  /** The answer reads `n` once lower-cased. */
  predicate IsNo(s: string) {
    |s| == 1 && LowerChar(s[0]) == 'n'
  }

  /** The two answers are the comparisons of the lower-cased line with `y`
      and with `n`. */
  lemma AnswersAreLowerCased(s: string)
    ensures IsYes(s) <==> Lower(s) == "y"
    ensures IsNo(s) <==> Lower(s) == "n"
  {
    var l := Lower(s);
    assert |l| == |s|;
    if |s| == 1 {
      assert l == [LowerChar(s[0])];
    }
  }

  /** An answer the y/n question accepts. */
  predicate Recognised(s: string) {
    IsYes(s) || IsNo(s)
  }

  /** Exactly `y` and `Y` mean yes, and exactly `n` and `N` mean no. */
  lemma RecognisedAnswers(s: string)
    ensures IsYes(s) <==> s == "y" || s == "Y"
    ensures IsNo(s) <==> s == "n" || s == "N"
  {
  }

  /** How many answers one y/n question reads at most: the first prompt and
      four re-prompts. */
  const MaxAsks: nat := 5

  /** Reading a line when the user has typed nothing more (`EOFError`). */
  datatype InputError = EndOfInput

  /** The last answer a y/n question read, and the position of the next
      unread line. */
  datatype Answer = Answer(text: string, next: nat)

  /** `a` is how the y/n question whose first answer is line `start` ends:
      it stops at the first recognised answer among at most `MaxAsks` lines,
      and after `MaxAsks` unrecognised ones it gives up on the last. */
  predicate AnswerFrom(responses: seq<string>, start: nat, a: Answer) {
    && start < a.next <= start + MaxAsks
    && a.next <= |responses|
    && a.text == responses[a.next - 1]
    && (forall k :: start <= k < a.next - 1 ==> !Recognised(responses[k]))
    && (Recognised(a.text) || a.next == start + MaxAsks)
  }

  /** The lines from `start` on run out before the question is settled. */
  predicate RunsOut(responses: seq<string>, start: nat) {
    && |responses| < start + MaxAsks
    && forall k :: start <= k < |responses| ==> !Recognised(responses[k])
  }

  /** A question ends in at most one way. */
  lemma AnswerUnique(responses: seq<string>, start: nat, a: Answer, b: Answer)
    requires AnswerFrom(responses, start, a) && AnswerFrom(responses, start, b)
    ensures a == b
  {
  }

  /** The re-prompt loop: `text` is the answer on line `next - 1`, read
      after `retries` re-prompts. */
  function AskLoop(responses: seq<string>, start: nat, text: string, next: nat, retries: nat): (r: Result<Answer, InputError>)
    requires retries < MaxAsks && next == start + retries + 1 && next <= |responses|
    requires text == responses[next - 1]
    requires forall k :: start <= k < next - 1 ==> !Recognised(responses[k])
    ensures r.Ok? ==> AnswerFrom(responses, start, r.value)
    ensures r.Err? <==> RunsOut(responses, start)
    decreases MaxAsks - retries
  {
    if Recognised(text) then Ok(Answer(text, next))
    else if retries < MaxAsks - 1 then
      if next < |responses| then AskLoop(responses, start, responses[next], next + 1, retries + 1)
      else Err(EndOfInput)
    else Ok(Answer(text, next))
  }

  /** One y/n question whose first answer is line `start`. */
  function AskYesNo(responses: seq<string>, start: nat): (r: Result<Answer, InputError>)
    ensures r.Ok? ==> AnswerFrom(responses, start, r.value)
    ensures r.Err? <==> RunsOut(responses, start)
  {
    if start < |responses| then AskLoop(responses, start, responses[start], start + 1, 0)
    else Err(EndOfInput)
  }

  /** A question gives up after `MaxAsks` unrecognised answers and leaves
      every later line to the next question, whatever those lines say. */
  lemma GivesUpAfterMaxAsks(responses: seq<string>, start: nat)
    requires start + MaxAsks <= |responses|
    requires forall k :: start <= k < start + MaxAsks ==> !Recognised(responses[k])
    ensures AskYesNo(responses, start) == Ok(Answer(responses[start + MaxAsks - 1], start + MaxAsks))
  {
  }

  /** The record built so far and how many lines have been read. */
  datatype Session = Session(record: Record, used: nat)

  /** Ask about one category: on a yes the next line is stored under `key`,
      on a no or after too many unrecognised answers nothing is stored. */
  function AskField(responses: seq<string>, s: Session, key: string): (r: Result<Session, InputError>)
    requires s.used <= |responses|
    ensures RunsOut(responses, s.used) ==> r.Err?
    ensures r.Ok? ==> r.value.used <= |responses|
  {
    match AskYesNo(responses, s.used)
    case Err(e) => Err(e)
    case Ok(a) =>
      if IsYes(a.text) then
        if a.next < |responses| then Ok(Session(Put(s.record, key, Text(responses[a.next])), a.next + 1))
        else Err(EndOfInput)
      else Ok(Session(s.record, a.next))
  }

  /** A question leaves every other category alone. */
  lemma AskFieldKeeps(responses: seq<string>, s: Session, key: string, k: string)
    requires s.used <= |responses| && k != key
    ensures AskField(responses, s, key).Ok? ==> Get(AskField(responses, s, key).value.record, k) == Get(s.record, k)
  {
    if AskField(responses, s, key).Ok? {
      var a := AskYesNo(responses, s.used).value;
      if IsYes(a.text) {
        PutKeeps(s.record, key, Text(responses[a.next]), k);
      }
    }
  }

  /** How one category's question ends decides the outcome: a yes stores
      the next line under `key` and fails only when no line is left for it,
      anything else stores nothing and reads no further. */
  lemma AskFieldAnswer(responses: seq<string>, s: Session, key: string, a: Answer)
    requires s.used <= |responses| && AnswerFrom(responses, s.used, a)
    ensures var r := AskField(responses, s, key);
      && (r.Err? <==> IsYes(a.text) && a.next == |responses|)
      && (r.Ok? && IsYes(a.text) ==>
            r.value.used == a.next + 1 && Get(r.value.record, key) == Some(Text(responses[a.next])))
      && (r.Ok? && !IsYes(a.text) ==> r.value == Session(s.record, a.next))
  {
  }

  /** The question starting at line `start` cannot be completed: the lines
      run out before it is settled, or it is answered yes on the last line,
      so no value follows. */
  ghost predicate QuestionFails(responses: seq<string>, start: nat) {
    || RunsOut(responses, start)
    || exists a :: AnswerFrom(responses, start, a) && IsYes(a.text) && a.next == |responses|
  }

  /** A question fails exactly when it cannot be completed. */
  lemma AskFieldFails(responses: seq<string>, s: Session, key: string)
    requires s.used <= |responses|
    ensures AskField(responses, s, key).Err? <==> QuestionFails(responses, s.used)
  {
    var q := AskYesNo(responses, s.used);
    if q.Ok? {
      AskFieldAnswer(responses, s, key, q.value);
      if b :| AnswerFrom(responses, s.used, b) && IsYes(b.text) && b.next == |responses| {
        AnswerUnique(responses, s.used, q.value, b);
      }
    }
  }

  /** The categories `add_metadata` asks about, in order. */
  const Categories: seq<string> := ["title", "artist", "genre"]

  /** The category holding the fingerprint count. */
  const FingerprintsKey: string := "fingerprints"

  /** The record holds the fingerprint count before any question is asked. */
  function Start(fingerprints: int): Session {
    Session([(FingerprintsKey, Count(fingerprints))], 0)
  }

  /** Ask about each of the first `n` of `cats` in turn from session `s`,
      with the one block of code `add_metadata` repeats per category; a
      question that runs out of input fails all of them. */
  function AskFirst(responses: seq<string>, s: Session, cats: seq<string>, n: nat): (r: Result<Session, InputError>)
    requires s.used <= |responses| && n <= |cats|
    ensures r.Ok? ==> r.value.used <= |responses|
    ensures n > 0 && RunsOut(responses, s.used) ==> r.Err?
  {
    if n == 0 then Ok(s)
    else
      var s' :- AskFirst(responses, s, cats, n - 1);
      AskField(responses, s', cats[n - 1])
  }

  /** Question `n - 1` leaves every category but its own alone. */
  lemma AskFirstKeeps(responses: seq<string>, s: Session, cats: seq<string>, n: nat, k: string)
    requires s.used <= |responses| && 0 < n <= |cats| && cats[n - 1] != k
    ensures AskFirst(responses, s, cats, n).Ok? ==>
      && AskFirst(responses, s, cats, n - 1).Ok?
      && Get(AskFirst(responses, s, cats, n).value.record, k) == Get(AskFirst(responses, s, cats, n - 1).value.record, k)
  {
    var before := AskFirst(responses, s, cats, n - 1);
    if before.Ok? {
      AskFieldKeeps(responses, before.value, cats[n - 1], k);
    }
  }

  /** Questions `m` to `n - 1` leave every category they do not ask about
      alone. */
  lemma {:induction false} LaterQuestionsKeep(responses: seq<string>, s: Session, cats: seq<string>, m: nat, n: nat, k: string)
    requires s.used <= |responses| && m <= n <= |cats|
    requires forall j :: m <= j < n ==> cats[j] != k
    ensures AskFirst(responses, s, cats, n).Ok? ==>
      && AskFirst(responses, s, cats, m).Ok?
      && Get(AskFirst(responses, s, cats, n).value.record, k) == Get(AskFirst(responses, s, cats, m).value.record, k)
    decreases n
  {
    hide AskField;
    if m < n {
      AskFirstKeeps(responses, s, cats, n, k);
      LaterQuestionsKeep(responses, s, cats, m, n - 1, k);
    }
  }

  /** The four category names are pairwise different. */
  lemma CategoriesDistinct()
    ensures forall i, j :: 0 <= i < j < |Categories| ==> Categories[i] != Categories[j]
    ensures forall i :: 0 <= i < |Categories| ==> Categories[i] != FingerprintsKey
  {
  }

  /** `add_metadata`: start from the fingerprint count and ask about the
      title, the artist and the genre in turn. Running out of input while a
      question is open fails the whole call. */
  function AddMetadata(fingerprints: int, responses: seq<string>): (r: Result<Session, InputError>)
    ensures r.Ok? ==> r.value.used <= |responses|
    ensures r.Ok? ==> Get(r.value.record, FingerprintsKey) == Some(Count(fingerprints))
    ensures RunsOut(responses, 0) ==> r.Err?
  {
    CategoriesDistinct();
    LaterQuestionsKeep(responses, Start(fingerprints), Categories, 0, |Categories|, FingerprintsKey);
    AskFirst(responses, Start(fingerprints), Categories, |Categories|)
  }

  /** The questions about the first `n` categories fail exactly when one of
      them, reached after the earlier ones succeeded, cannot be completed. */
  lemma {:induction false} AskFirstFails(responses: seq<string>, s: Session, cats: seq<string>, n: nat)
    requires s.used <= |responses| && n <= |cats|
    ensures AskFirst(responses, s, cats, n).Err? <==>
      exists j :: 0 <= j < n && AskFirst(responses, s, cats, j).Ok? &&
        QuestionFails(responses, AskFirst(responses, s, cats, j).value.used)
    decreases n
  {
    hide AskField;
    if n > 0 {
      AskFirstFails(responses, s, cats, n - 1);
      var before := AskFirst(responses, s, cats, n - 1);
      if before.Ok? {
        AskFieldFails(responses, before.value, cats[n - 1]);
        assert AskFirst(responses, s, cats, n) == AskField(responses, before.value, cats[n - 1]);
      } else {
        assert AskFirst(responses, s, cats, n).Err?;
        var j :| 0 <= j < n - 1 && AskFirst(responses, s, cats, j).Ok? &&
          QuestionFails(responses, AskFirst(responses, s, cats, j).value.used);
      }
    }
  }

  /** `add_metadata` fails exactly when one of its three questions, reached
      after the earlier ones succeeded, runs out of lines or is answered yes
      on the last line. */
  lemma AddMetadataFails(fingerprints: int, responses: seq<string>)
    ensures AddMetadata(fingerprints, responses).Err? <==>
      exists j :: 0 <= j < |Categories| && AskFirst(responses, Start(fingerprints), Categories, j).Ok? &&
        QuestionFails(responses, AskFirst(responses, Start(fingerprints), Categories, j).value.used)
  {
    AskFirstFails(responses, Start(fingerprints), Categories, |Categories|);
  }

  /** Three no answers give a record holding only the fingerprint count. */
  lemma AllNoKeepsCount(fingerprints: int)
    ensures AddMetadata(fingerprints, ["n", "n", "n"]) == Ok(Session([(FingerprintsKey, Count(fingerprints))], 3))
  {
    var rs: seq<string> := ["n", "n", "n"];
    var rec := Start(fingerprints).record;
    assert Recognised("n") && !IsYes("n");
    forall i | 0 <= i < 3
      ensures AskField(rs, Session(rec, i), Categories[i]) == Ok(Session(rec, i + 1))
    {
      assert AskYesNo(rs, i) == Ok(Answer("n", i + 1));
    }
    assert AskFirst(rs, Start(fingerprints), Categories, 1) == Ok(Session(rec, 1));
    assert AskFirst(rs, Start(fingerprints), Categories, 2) == Ok(Session(rec, 2));
  }

  /** One question keeps the categories listed so far, in place, and adds
      at most `key`, without duplicating any. */
  lemma AskFieldKeys(responses: seq<string>, s: Session, key: string)
    requires s.used <= |responses| && NoDuplicates(Keys(s.record))
    requires AskField(responses, s, key).Ok?
    ensures var ks := Keys(AskField(responses, s, key).value.record);
      && NoDuplicates(ks) && Keys(s.record) <= ks
      && forall k :: k in ks ==> k in Keys(s.record) || k == key
  {
    var a := AskYesNo(responses, s.used).value;
    if IsYes(a.text) {
      var v := Text(responses[a.next]);
      assert AskField(responses, s, key).value.record == Put(s.record, key, v);
      PutKeys(s.record, key, v);
      if key !in Keys(s.record) {
        AppendNew(Keys(s.record), key);
      }
    }
  }

  /** `ks'` keeps the key list `ks` in place and adds, without duplicates,
      only keys among the first `n` of `cats`. */
  predicate Extends(ks': seq<string>, ks: seq<string>, cats: seq<string>, n: nat)
    requires n <= |cats|
  {
    && NoDuplicates(ks') && ks <= ks'
    && forall k :: k in ks' ==> k in ks || k in cats[..n]
  }

  /** Asking about one more category keeps a key list extended. */
  lemma ExtendsStep(ks: seq<string>, ks': seq<string>, ks'': seq<string>, cats: seq<string>, n: nat)
    requires n < |cats| && Extends(ks', ks, cats, n)
    requires NoDuplicates(ks'') && ks' <= ks''
    requires forall k :: k in ks'' ==> k in ks' || k == cats[n]
    ensures Extends(ks'', ks, cats, n + 1)
  {
  }

  /** Questions keep the key list they start from in place and add only the
      categories they ask about, each at most once. */
  lemma {:induction false} AskFirstKeys(responses: seq<string>, s: Session, cats: seq<string>, n: nat)
    requires s.used <= |responses| && n <= |cats| && NoDuplicates(Keys(s.record))
    requires AskFirst(responses, s, cats, n).Ok?
    ensures Extends(Keys(AskFirst(responses, s, cats, n).value.record), Keys(s.record), cats, n)
  {
    hide AskField;
    if n > 0 {
      AskFirstKeys(responses, s, cats, n - 1);
      var s' := AskFirst(responses, s, cats, n - 1).value;
      var r := AskField(responses, s', cats[n - 1]);
      assert AskFirst(responses, s, cats, n) == r;
      AskFieldKeys(responses, s', cats[n - 1]);
      ExtendsStep(Keys(s.record), Keys(s'.record), Keys(r.value.record), cats, n - 1);
    }
  }

  /** The record `add_metadata` builds lists the fingerprint count first,
      then only asked-about categories, each at most once. */
  lemma AddMetadataKeys(fingerprints: int, responses: seq<string>)
    requires AddMetadata(fingerprints, responses).Ok?
    ensures var rec := AddMetadata(fingerprints, responses).value.record;
      && UniqueKeys(rec) && |rec| > 0 && Keys(rec)[0] == FingerprintsKey
      && forall k :: k in Keys(rec) ==> k == FingerprintsKey || k in Categories
  {
    var start := Start(fingerprints);
    assert Keys(start.record) == [FingerprintsKey];
    AskFirstKeys(responses, start, Categories, |Categories|);
    var ks := Keys(AddMetadata(fingerprints, responses).value.record);
    assert ks[..1] == [FingerprintsKey];
    assert Categories[..|Categories|] == Categories;
  }

  /** Category `n` is present exactly when its question was answered yes,
      and then holds the line typed right after that answer; its question
      starts on the line after the previous questions' last. */
  lemma AddMetadataCategory(fingerprints: int, responses: seq<string>, n: nat, a: Answer)
    requires n < |Categories| && AddMetadata(fingerprints, responses).Ok?
    requires AskFirst(responses, Start(fingerprints), Categories, n).Ok?
    requires AnswerFrom(responses, AskFirst(responses, Start(fingerprints), Categories, n).value.used, a)
    ensures var rec := AddMetadata(fingerprints, responses).value.record;
      && (Get(rec, Categories[n]).Some? <==> IsYes(a.text))
      && (IsYes(a.text) ==> a.next < |responses| && Get(rec, Categories[n]) == Some(Text(responses[a.next])))
  {
    var cat := Categories[n];
    var start := Start(fingerprints);
    var s := AskFirst(responses, start, Categories, n).value;
    CategoriesDistinct();
    LaterQuestionsKeep(responses, start, Categories, n + 1, |Categories|, cat);
    assert AskFirst(responses, start, Categories, n + 1) == AskField(responses, s, cat);
    AskFieldAnswer(responses, s, cat, a);
    assert Keys(start.record) == [FingerprintsKey];
    AskFirstKeys(responses, start, Categories, n);
    assert cat !in Categories[..n];
    assert cat !in Keys(s.record);
  }

  /** The metadata of every registered song. */
  type Store = map<SongId, Record>

  /** What `get_metadata` returns. */
  datatype Reply =
    | Stored(value: Value)      // the value stored for the queried category
    | Rendered(record: Record)  // the whole record, in its string form
    | Message(text: string)     // an error message

  /** How every error message begins. */
  const ErrorPrefix: string := "Error: "

  const SongNotFound: string := ErrorPrefix + "the song was not found in this database"

  /** A category list written the way Python prints a list of strings. */
  function KeyList(keys: seq<string>): string {
    "[" + Joined(keys) + "]"
  }

  function Joined(keys: seq<string>): string {
    if keys == [] then ""
    else if |keys| == 1 then "'" + keys[0] + "'"
    else "'" + keys[0] + "', " + Joined(keys[1..])
  }

  /** The message for a category the song has no value for. */
  function MissingCategory(query: string, rec: Record): string {
    ErrorPrefix + query + " was not found for this song. The available data for this song is: " + KeyList(Keys(rec))
  }

  /** `get_metadata`: the stored value of one category, or the whole record
      when no category is asked for; an unknown song or category gives an
      error message. */
  function GetMetadata(store: Store, id: SongId, query: Option<string>): (r: Reply)
    ensures id !in store ==> r == Message(SongNotFound)
    ensures id in store && query.None? ==> r == Rendered(store[id])
    ensures id in store && query.Some? ==>
      && (r.Stored? <==> query.value in Keys(store[id]))
      && (r.Stored? ==> Get(store[id], query.value) == Some(r.value))
      && (!r.Stored? ==> r == Message(MissingCategory(query.value, store[id])))
  {
    if id in store then
      var rec := store[id];
      match query
      case Some(q) =>
        (match Get(rec, q)
         case Some(v) => Stored(v)
         case None => Message(MissingCategory(q, rec)))
      case None => Rendered(rec)
    else Message(SongNotFound)
  }

  /** `get_fingerprints`: the stored fingerprint count, 0 when the song or
      its count is missing. */
  function GetFingerprints(store: Store, id: SongId): (r: Value)
    ensures id in store && FingerprintsKey in Keys(store[id]) ==> Get(store[id], FingerprintsKey) == Some(r)
    ensures !(id in store && FingerprintsKey in Keys(store[id])) ==> r == Count(0)
  {
    if id in store then
      match Get(store[id], FingerprintsKey)
      case Some(v) => v
      case None => Count(0)
    else Count(0)
  }

  /** Both error messages start with `Error: `. */
  lemma ErrorsAreMarked(store: Store, id: SongId, query: Option<string>)
    ensures GetMetadata(store, id, query).Message? ==> ErrorPrefix <= GetMetadata(store, id, query).text
  {
  }

  /** Registering the record `add_metadata` built under a song id: both
      lookups then return what was entered for that song. */
  lemma RegisteredMetadataRoundTrip(store: Store, id: SongId, fingerprints: int, responses: seq<string>, a: Answer)
    requires AddMetadata(fingerprints, responses).Ok?
    requires AnswerFrom(responses, 0, a)
    ensures var st := store[id := AddMetadata(fingerprints, responses).value.record];
      && GetFingerprints(st, id) == Count(fingerprints)
      && GetMetadata(st, id, Some(FingerprintsKey)) == Stored(Count(fingerprints))
      && GetMetadata(st, id, None) == Rendered(AddMetadata(fingerprints, responses).value.record)
      && (IsYes(a.text) ==> a.next < |responses| && GetMetadata(st, id, Some("title")) == Stored(Text(responses[a.next])))
      && (!IsYes(a.text) ==> GetMetadata(st, id, Some("title")).Message?)
  {
    AddMetadataCategory(fingerprints, responses, 0, a);
  }

  /** Registering a record under one song id changes no lookup of any other
      song. */
  lemma RegisteringLeavesOthers(store: Store, id: SongId, rec: Record, other: SongId, query: Option<string>)
    requires other != id
    ensures GetMetadata(store[id := rec], other, query) == GetMetadata(store, other, query)
    ensures GetFingerprints(store[id := rec], other) == GetFingerprints(store, other)
  {
  }
}

=== FILE: pairing.dfy ===
/** Fingerprint pairing: every peak is paired with its nearest other peaks
    (`find_closest`) and each pair becomes a fingerprint key
    (`create_fingerprints`). */
module Pairing {
  import opened Base
  import opened Peaks

  /** Squared Euclidean distance between two peaks. The square root is
      monotonic, so this orders pairs exactly as the Euclidean distance. */
  function SqDist(a: Cell, b: Cell): nat {
    Abs(a.row - b.row) * Abs(a.row - b.row) + Abs(a.col - b.col) * Abs(a.col - b.col)
  }

  /** Two peaks are at distance zero exactly when they coincide. */
  lemma SqDistZero(a: Cell, b: Cell)
    ensures SqDist(a, b) == 0 <==> a == b
  {
    var x, y := Abs(a.row - b.row), Abs(a.col - b.col);
    if x > 0 {
      assert x * x >= x;
    }
    if y > 0 {
      assert y * y >= y;
    }
  }

  /** The distance does not depend on which peak is the anchor. */
  lemma SqDistSymmetric(a: Cell, b: Cell)
    ensures SqDist(a, b) == SqDist(b, a)
  {
    assert Abs(a.row - b.row) == Abs(b.row - a.row);
    assert Abs(a.col - b.col) == Abs(b.col - a.col);
  }

  /** The distance from peak `index` to every peak, in list order. */
  function Dists(peaks: seq<Cell>, index: nat): (d: seq<nat>)
    requires index < |peaks|
    ensures |d| == |peaks| && d[index] == 0
  {
    seq(|peaks|, i requires 0 <= i < |peaks| => SqDist(peaks[index], peaks[i]))
  }

  /** Index `i` comes before index `j`: strictly nearer, or equally near and
      earlier in the list. A strict total order on the indices of `d`. */
  predicate Before(d: seq<nat>, i: nat, j: nat)
    requires i < |d| && j < |d|
  {
    d[i] < d[j] || (d[i] == d[j] && i < j)
  }

  predicate SortedBy(d: seq<nat>, s: seq<nat>) {
    && (forall k :: 0 <= k < |s| ==> s[k] < |d|)
    && (forall a, b :: 0 <= a < b < |s| ==> Before(d, s[a], s[b]))
  }

  /** Insert index `x` into a sorted list of indices. */
  function Insert(d: seq<nat>, x: nat, s: seq<nat>): (r: seq<nat>)
    requires x < |d| && SortedBy(d, s) && x !in s
    ensures SortedBy(d, r)
    ensures |r| == |s| + 1
    ensures forall y :: y in r <==> y == x || y in s
  {
    if s == [] then [x]
    else if Before(d, x, s[0]) then
      assert forall b :: 0 <= b < |s| ==> Before(d, x, s[b]);
      [x] + s
    else
      var t := Insert(d, x, s[1..]);
      HeadBeforeRest(d, s, x, t);
      [s[0]] + t
  }

  /** The head of a sorted list comes before every element of a list made of
      the rest of it and one more index that does not come before the head. */
  lemma HeadBeforeRest(d: seq<nat>, s: seq<nat>, x: nat, t: seq<nat>)
    requires x < |d| && SortedBy(d, s) && |s| > 0 && x !in s && !Before(d, x, s[0])
    requires forall y :: y in t <==> y == x || y in s[1..]
    requires forall b :: 0 <= b < |t| ==> t[b] < |d|
    ensures forall b :: 0 <= b < |t| ==> Before(d, s[0], t[b])
  {
    forall b | 0 <= b < |t|
      ensures Before(d, s[0], t[b])
    {
      assert t[b] in t;
      if t[b] != x {
        assert t[b] in s[1..];
        var c :| 0 <= c < |s| - 1 && s[1..][c] == t[b];
        assert s[c + 1] == t[b];
      }
    }
  }

  /** The indices `0 .. n-1` ordered by ascending distance, equal distances
      by ascending index: a stable argsort. */
  function ArgSort(d: seq<nat>, n: nat): (r: seq<nat>)
    requires n <= |d|
    ensures SortedBy(d, r)
    ensures |r| == n
    ensures forall y :: y in r <==> 0 <= y < n
  {
    if n == 0 then []
    else
      var s := ArgSort(d, n - 1);
      var r := Insert(d, n - 1, s);
      r
  }

  /** With distinct peaks, the anchor itself is the unique nearest peak and
      so comes first in the argsort. */
  lemma AnchorSortsFirst(peaks: seq<Cell>, index: nat)
    requires index < |peaks| && NoDuplicates(peaks)
    ensures ArgSort(Dists(peaks, index), |peaks|)[0] == index
  {
    var d := Dists(peaks, index);
    var order := ArgSort(d, |peaks|);
    assert index in order;
    var p :| 0 <= p < |order| && order[p] == index;
    var q := order[0];
    SqDistZero(peaks[index], peaks[index]);
    SqDistZero(peaks[index], peaks[q]);
  }

  /** `find_closest`: the first `fanout` indices after the nearest one in the
      argsort of the distances from peak `index`. */
  function FindClosest(peaks: seq<Cell>, index: nat, fanout: nat): (r: seq<nat>)
    requires index < |peaks|
    ensures |r| == Min(fanout, |peaks| - 1)
    ensures forall k :: 0 <= k < |r| ==> r[k] < |peaks|
    ensures forall a, b :: 0 <= a < b < |r| ==> r[a] != r[b]
    ensures forall a, b :: 0 <= a < b < |r| ==>
      SqDist(peaks[index], peaks[r[a]]) <= SqDist(peaks[index], peaks[r[b]])
  {
    var order := ArgSort(Dists(peaks, index), |peaks|);
    order[1..Min(fanout + 1, |peaks|)]
  }

  /** With distinct peaks, `find_closest` never pairs a peak with itself, and
      no peak it leaves out is strictly nearer than one it chose. */
  lemma ClosestAreNearest(peaks: seq<Cell>, index: nat, fanout: nat)
    requires index < |peaks| && NoDuplicates(peaks)
    ensures index !in FindClosest(peaks, index, fanout)
    ensures forall j, k ::
      (0 <= j < |peaks| && j != index && j !in FindClosest(peaks, index, fanout)
       && 0 <= k < |FindClosest(peaks, index, fanout)|) ==>
      SqDist(peaks[index], peaks[FindClosest(peaks, index, fanout)[k]]) <= SqDist(peaks[index], peaks[j])
  {
    var d := Dists(peaks, index);
    var order := ArgSort(d, |peaks|);
    var r := FindClosest(peaks, index, fanout);
    var m := Min(fanout + 1, |peaks|);
    assert r == order[1..m];
    AnchorSortsFirst(peaks, index);
    assert forall q :: 1 <= q < m ==> order[q] == r[q - 1];
    forall j, k | 0 <= j < |peaks| && j != index && j !in r && 0 <= k < |r|
      ensures SqDist(peaks[index], peaks[r[k]]) <= SqDist(peaks[index], peaks[j])
    {
      assert j in order;
      var p :| 0 <= p < |order| && order[p] == j;
      assert Before(d, order[k + 1], order[p]);
    }
  }

  /** A fingerprint key: the inverted frequency bins of the anchor and target
      peaks, and the distance between them in time frames. */
  datatype Fingerprint = Fingerprint(anchorFreq: int, targetFreq: int, dt: nat)

  /** The fan-out `create_fingerprints` passes to `find_closest`. */
  const Fanout: nat := 4

  function Key(anchor: Cell, target: Cell, numFreqs: int): Fingerprint {
    Fingerprint(numFreqs - 1 - anchor.row, numFreqs - 1 - target.row, Abs(anchor.col - target.col))
  }

  /** The keys anchor `i` contributes, one per chosen target, nearest first. */
  function AnchorKeys(peaks: seq<Cell>, i: nat, numFreqs: int): seq<Fingerprint>
    requires i < |peaks|
  {
    var t := FindClosest(peaks, i, Fanout);
    seq(|t|, j requires 0 <= j < |t| => Key(peaks[i], peaks[t[j]], numFreqs))
  }

  /** Every peak lies in one of the `numFreqs` frequency bins. */
  predicate RowsBelow(peaks: seq<Cell>, numFreqs: int) {
    forall i :: 0 <= i < |peaks| ==> peaks[i].row < numFreqs
  }

  predicate FreqsInRange(f: Fingerprint, numFreqs: int) {
    0 <= f.anchorFreq < numFreqs && 0 <= f.targetFreq < numFreqs
  }

  /** Appending keeps every earlier group of `k` keys in place. */
  lemma GroupUnchanged(before: seq<Fingerprint>, extra: seq<Fingerprint>, a: nat, i: nat, k: nat)
    requires |before| == i * k && a < i
    ensures 0 <= a * k <= (a + 1) * k <= |before|
    ensures (before + extra)[a * k .. (a + 1) * k] == before[a * k .. (a + 1) * k]
  {
    MulMonotone(a + 1, i, k);
    assert (a + 1) * k == a * k + k;
    SliceOfAppend(before, extra, a * k, (a + 1) * k);
  }

  lemma {:induction false} MulMonotone(x: nat, y: nat, k: nat)
    requires x <= y
    ensures x * k <= y * k
    decreases y - x
  {
    if x < y {
      MulMonotone(x, y - 1, k);
      assert y * k == (y - 1) * k + k;
    }
  }

  lemma SliceOfAppend(before: seq<Fingerprint>, extra: seq<Fingerprint>, lo: nat, hi: nat)
    requires lo <= hi <= |before|
    ensures (before + extra)[lo..hi] == before[lo..hi]
  {
  }

  /** Appending a group of `k` keys places it as group number `i`. */
  lemma LastGroup(before: seq<Fingerprint>, extra: seq<Fingerprint>, i: nat, k: nat)
    requires |before| == i * k && |extra| == k
    ensures |before + extra| == (i + 1) * k
    ensures (before + extra)[i * k .. (i + 1) * k] == extra
  {
    var lo := i * k;
    assert (i + 1) * k == lo + k;
    assert (before + extra)[lo..] == extra;
  }

  /** The inner loop of `create_fingerprints`: one key per target chosen
      for anchor `i`, nearest target first. */
  method PairAnchor(peaks: seq<Cell>, i: nat, numFreqs: int) returns (keys: seq<Fingerprint>)
    requires i < |peaks|
    ensures |keys| == Min(Fanout, |peaks| - 1)
    ensures forall j :: 0 <= j < |keys| ==>
      keys[j] == Key(peaks[i], peaks[FindClosest(peaks, i, Fanout)[j]], numFreqs)
    ensures RowsBelow(peaks, numFreqs) ==> forall j :: 0 <= j < |keys| ==> FreqsInRange(keys[j], numFreqs)
    ensures keys == AnchorKeys(peaks, i, numFreqs)
  {
    var closest := FindClosest(peaks, i, Fanout);
    keys := [];
    var j := 0;
    while j < |closest|
      invariant j <= |closest|
      invariant |keys| == j
      invariant forall m :: 0 <= m < j ==> keys[m] == Key(peaks[i], peaks[closest[m]], numFreqs)
      invariant RowsBelow(peaks, numFreqs) ==> forall m :: 0 <= m < j ==> FreqsInRange(keys[m], numFreqs)
    {
      keys := keys + [Key(peaks[i], peaks[closest[j]], numFreqs)];
      j := j + 1;
    }
  }

  /** Appending keys in range keeps every key in range. */
  lemma AppendInRange(before: seq<Fingerprint>, extra: seq<Fingerprint>, numFreqs: int)
    requires forall m :: 0 <= m < |before| ==> FreqsInRange(before[m], numFreqs)
    requires forall m :: 0 <= m < |extra| ==> FreqsInRange(extra[m], numFreqs)
    ensures forall m :: 0 <= m < |before + extra| ==> FreqsInRange((before + extra)[m], numFreqs)
  {
  }

  /** How many keys each of `n` anchors contributes: `min(4, n - 1)`, the
      length of its `find_closest` result, and none when there are no peaks. */
  function PerAnchor(n: nat): nat {
    if n == 0 then 0 else Min(Fanout, n - 1)
  }

  /** `fps` is the keys of anchors `0 .. i-1`, in anchor order, each anchor
      contributing a group of `k` consecutive keys. */
  predicate GroupsMatch(fps: seq<Fingerprint>, peaks: seq<Cell>, numFreqs: int, i: nat, k: nat)
    requires i <= |peaks|
  {
    && |fps| == i * k
    && forall a {:trigger AnchorKeys(peaks, a, numFreqs)} :: 0 <= a < i ==>
         0 <= a * k <= (a + 1) * k <= |fps| && fps[a * k .. (a + 1) * k] == AnchorKeys(peaks, a, numFreqs)
  }

  /** Appending the keys of anchor `i` extends the grouping by one anchor. */
  lemma GroupsExtend(fps: seq<Fingerprint>, keys: seq<Fingerprint>, peaks: seq<Cell>, numFreqs: int, i: nat, k: nat)
    requires i < |peaks| && GroupsMatch(fps, peaks, numFreqs, i, k)
    requires keys == AnchorKeys(peaks, i, numFreqs) && |keys| == k
    ensures GroupsMatch(fps + keys, peaks, numFreqs, i + 1, k)
  {
    forall a {:trigger AnchorKeys(peaks, a, numFreqs)} | 0 <= a < i
      ensures 0 <= a * k <= (a + 1) * k <= |fps + keys|
           && (fps + keys)[a * k .. (a + 1) * k] == AnchorKeys(peaks, a, numFreqs)
    {
      GroupUnchanged(fps, keys, a, i, k);
    }
    LastGroup(fps, keys, i, k);
  }

  /** `create_fingerprints`: for each anchor in list order, one key per
      chosen target. */
  method CreateFingerprints(peaks: seq<Cell>, numFreqs: int) returns (fps: seq<Fingerprint>)
    ensures |fps| == |peaks| * PerAnchor(|peaks|)
    ensures GroupsMatch(fps, peaks, numFreqs, |peaks|, PerAnchor(|peaks|))
    ensures RowsBelow(peaks, numFreqs) ==> forall m :: 0 <= m < |fps| ==> FreqsInRange(fps[m], numFreqs)
  {
    fps := [];
    if |peaks| == 0 {
      return;
    }
    var k := PerAnchor(|peaks|);
    var i := 0;
    while i < |peaks|
      invariant i <= |peaks|
      invariant GroupsMatch(fps, peaks, numFreqs, i, k)
      invariant RowsBelow(peaks, numFreqs) ==> forall m :: 0 <= m < |fps| ==> FreqsInRange(fps[m], numFreqs)
    {
      var keys := PairAnchor(peaks, i, numFreqs);
      if RowsBelow(peaks, numFreqs) {
        AppendInRange(fps, keys, numFreqs);
      }
      GroupsExtend(fps, keys, peaks, numFreqs, i, k);
      fps := fps + keys;
      i := i + 1;
    }
  }
}

=== FILE: peaks.dfy ===
/** Two-dimensional local-peak extraction over a magnitude grid: the
    scan of `_peaks` and the mask centring of `local_peak_locations`. */
module Peaks {
  import opened Base

  /** A magnitude grid: `g[r][c]` is the amplitude of frequency bin `r`
      in time frame `c`. */
  type Grid = seq<seq<int>>

  /** The length of the first row of a 2-D array, zero when it has none. */
  function Width<T>(g: seq<seq<T>>): nat {
    if |g| == 0 then 0 else |g[0]|
  }

  /** Every row has the same length, as in a 2-D array. */
  predicate Rectangular<T>(g: seq<seq<T>>) {
    forall r :: 0 <= r < |g| ==> |g[r]| == Width(g)
  }

  /** A grid coordinate: (row, column) = (frequency bin, time frame). */
  datatype Cell = Cell(row: nat, col: nat)

  /** A neighbourhood offset relative to the cell under test. */
  datatype Offset = Offset(dr: int, dc: int)

  datatype PeakError =
    | EvenMask                   // a mask dimension is even: the assertion fails
    | IndexOutOfRange(cell: Cell) // a mirrored neighbour of `cell` lies outside the grid

  predicate InGrid(g: Grid, x: Cell) {
    x.row < |g| && x.col < Width(g)
  }

  function At(g: Grid, x: Cell): int
    requires Rectangular(g) && InGrid(g, x)
  {
    g[x.row][x.col]
  }

  /** The coordinate compared along one axis: `i + d` when that stays in
      `[0, n)`, otherwise the offset is mirrored to `i - d`. It stays in the
      grid whenever the offset reaches at most half-way across it. */
  function Mirror(i: int, d: int, n: nat): (m: int)
    ensures 0 <= i < n && 2 * Abs(d) <= n ==> 0 <= m < n
    ensures m == i <==> d == 0
  {
    if 0 <= i + d < n then i + d else i - d
  }

  /** Array indexing along an axis of length `n`: a negative index counts
      from the end; anything outside `[-n, n)` is out of range. */
  function PyIndex(i: int, n: nat): (r: Option<nat>)
    ensures r.Some? <==> -(n as int) <= i < n
    ensures 0 <= i < n ==> r == Some(i)
    ensures r.Some? ==> r.value < n
  {
    if 0 <= i < n then Some(i) else if -(n as int) <= i < 0 then Some(i + n) else None
  }

  /** What the loop over the neighbourhood decides about a cell. */
  datatype Verdict = Keep | Reject | Fault

  /** The inner loop of the scan from offset `k` on: the centre offset is
      skipped, an out-of-range offset is mirrored per axis, a strictly
      larger neighbour rejects the cell, and running off the end keeps it. */
  function Examine(g: Grid, x: Cell, offsets: seq<Offset>, k: nat): Verdict
    requires Rectangular(g) && InGrid(g, x) && k <= |offsets|
    decreases |offsets| - k
  {
    if k == |offsets| then Keep
    else
      var o := offsets[k];
      if o.dr == 0 && o.dc == 0 then Examine(g, x, offsets, k + 1)
      else
        var ri := PyIndex(Mirror(x.row, o.dr, |g|), |g|);
        var ci := PyIndex(Mirror(x.col, o.dc, Width(g)), Width(g));
        if ri.None? || ci.None? then Fault
        else if At(g, x) < g[ri.value][ci.value] then Reject
        else Examine(g, x, offsets, k + 1)
  }

  /** A cell the scan keeps: strictly above the floor and not rejected. */
  predicate Qualifies(g: Grid, offsets: seq<Offset>, ampMin: int, x: Cell)
    requires Rectangular(g) && InGrid(g, x)
  {
    At(g, x) > ampMin && Examine(g, x, offsets, 0) == Keep
  }

  /** A cell on which the scan would read outside the grid. */
  predicate Faults(g: Grid, offsets: seq<Offset>, ampMin: int, x: Cell)
    requires Rectangular(g) && InGrid(g, x)
  {
    At(g, x) > ampMin && Examine(g, x, offsets, 0) == Fault
  }

  /** Every offset reaches at most half-way across the grid on each axis,
      so that the (possibly mirrored) neighbour always lies in the grid. */
  predicate Fits(g: Grid, offsets: seq<Offset>) {
    forall k :: 0 <= k < |offsets| ==>
      2 * Abs(offsets[k].dr) <= |g| && 2 * Abs(offsets[k].dc) <= Width(g)
  }

  /** The neighbour value compared against `x` for offset `o`. */
  function MirroredValue(g: Grid, x: Cell, o: Offset): int
    requires Rectangular(g) && InGrid(g, x)
    requires 2 * Abs(o.dr) <= |g| && 2 * Abs(o.dc) <= Width(g)
  {
    g[Mirror(x.row, o.dr, |g|)][Mirror(x.col, o.dc, Width(g))]
  }

  /** `x` is at least as large as every mirrored neighbour at a non-zero
      offset; equal neighbours do not disqualify it. */
  predicate Dominates(g: Grid, offsets: seq<Offset>, x: Cell)
    requires Rectangular(g) && InGrid(g, x) && Fits(g, offsets)
  {
    forall k :: 0 <= k < |offsets| && offsets[k] != Offset(0, 0) ==>
      At(g, x) >= MirroredValue(g, x, offsets[k])
  }

  /** The declarative notion of a local peak. */
  predicate IsPeak(g: Grid, offsets: seq<Offset>, ampMin: int, x: Cell)
    requires Rectangular(g) && Fits(g, offsets)
  {
    InGrid(g, x) && At(g, x) > ampMin && Dominates(g, offsets, x)
  }

  predicate ColumnMajorBefore(a: Cell, b: Cell) {
    a.col < b.col || (a.col == b.col && a.row < b.row)
  }

  predicate ColumnMajorSorted(s: seq<Cell>) {
    forall i, j :: 0 <= i < j < |s| ==> ColumnMajorBefore(s[i], s[j])
  }

  /** When the neighbourhood fits, the loop over the offsets never reads
      outside the grid, and keeps the cell exactly when no mirrored
      neighbour from offset `k` on is strictly larger. */
  lemma {:induction false} ExamineUnderFits(g: Grid, x: Cell, offsets: seq<Offset>, k: nat)
    requires Rectangular(g) && InGrid(g, x) && k <= |offsets|
    ensures Fits(g, offsets) ==>
      && Examine(g, x, offsets, k) != Fault
      && (Examine(g, x, offsets, k) == Keep <==>
          forall j :: k <= j < |offsets| && offsets[j] != Offset(0, 0) ==>
            At(g, x) >= MirroredValue(g, x, offsets[j]))
    decreases |offsets| - k
  {
    if Fits(g, offsets) && k < |offsets| {
      ExamineUnderFits(g, x, offsets, k + 1);
      var o := offsets[k];
      if o != Offset(0, 0) {
        var mr := Mirror(x.row, o.dr, |g|);
        var mc := Mirror(x.col, o.dc, Width(g));
        assert PyIndex(mr, |g|) == Some(mr);
        assert PyIndex(mc, Width(g)) == Some(mc);
      }
    }
  }

  /** The scan is exactly the declarative peak test when the neighbourhood fits. */
  lemma QualifiesIffPeak(g: Grid, offsets: seq<Offset>, ampMin: int, x: Cell)
    requires Rectangular(g) && InGrid(g, x)
    ensures Fits(g, offsets) ==>
      && !Faults(g, offsets, ampMin, x)
      && (Qualifies(g, offsets, ampMin, x) <==> IsPeak(g, offsets, ampMin, x))
  {
    ExamineUnderFits(g, x, offsets, 0);
  }

  /** `_peaks`: scan the grid in column-major order and collect every cell
      above `ampMin` that no neighbour strictly exceeds. */
  method FindPeaks(g: Grid, offsets: seq<Offset>, ampMin: int) returns (r: Result<seq<Cell>, PeakError>)
    requires Rectangular(g)
    ensures r.Ok? <==> forall x :: InGrid(g, x) ==> !Faults(g, offsets, ampMin, x)
    ensures r.Err? ==>
      && r.error.IndexOutOfRange?
      && InGrid(g, r.error.cell)
      && Faults(g, offsets, ampMin, r.error.cell)
      && forall x :: InGrid(g, x) && ColumnMajorBefore(x, r.error.cell) ==> !Faults(g, offsets, ampMin, x)
    ensures r.Ok? ==> forall i :: 0 <= i < |r.value| ==>
      InGrid(g, r.value[i]) && At(g, r.value[i]) > ampMin && Qualifies(g, offsets, ampMin, r.value[i])
    ensures r.Ok? ==> forall x :: InGrid(g, x) && Qualifies(g, offsets, ampMin, x) ==> x in r.value
    ensures r.Ok? ==> ColumnMajorSorted(r.value)
    ensures Fits(g, offsets) ==> r.Ok? && forall x :: x in r.value <==> IsPeak(g, offsets, ampMin, x)
  {
    var peaks: seq<Cell> := [];
    var c := 0;
    while c < Width(g)
      invariant c <= Width(g)
      invariant forall i :: 0 <= i < |peaks| ==>
        InGrid(g, peaks[i]) && Qualifies(g, offsets, ampMin, peaks[i]) && peaks[i].col < c
      invariant ColumnMajorSorted(peaks)
      invariant forall x :: InGrid(g, x) && x.col < c && Qualifies(g, offsets, ampMin, x) ==> x in peaks
      invariant forall x :: InGrid(g, x) && x.col < c ==> !Faults(g, offsets, ampMin, x)
    {
      var row := 0;
      while row < |g|
        invariant row <= |g|
        invariant forall i :: 0 <= i < |peaks| ==>
          InGrid(g, peaks[i]) && Qualifies(g, offsets, ampMin, peaks[i])
          && ColumnMajorBefore(peaks[i], Cell(row, c))
        invariant ColumnMajorSorted(peaks)
        invariant forall x :: InGrid(g, x) && ColumnMajorBefore(x, Cell(row, c)) && Qualifies(g, offsets, ampMin, x) ==> x in peaks
        invariant forall x :: InGrid(g, x) && ColumnMajorBefore(x, Cell(row, c)) ==> !Faults(g, offsets, ampMin, x)
      {
        var x := Cell(row, c);
        if g[row][c] > ampMin {
          var v := Examine(g, x, offsets, 0);
          if v == Fault {
            QualifiesIffPeak(g, offsets, ampMin, x);
            return Err(IndexOutOfRange(x));
          }
          if v == Keep {
            peaks := peaks + [x];
          }
        }
        row := row + 1;
      }
      c := c + 1;
    }
    forall x | InGrid(g, x)
      ensures Fits(g, offsets) ==> (Qualifies(g, offsets, ampMin, x) <==> IsPeak(g, offsets, ampMin, x))
    {
      QualifiesIffPeak(g, offsets, ampMin, x);
    }
    r := Ok(peaks);
  }

  /** A cell strictly larger than every other cell and above the floor is a
      peak, whatever neighbourhood (that fits) is used. */
  lemma StrictMaximumIsPeak(g: Grid, offsets: seq<Offset>, ampMin: int, x: Cell)
    requires Rectangular(g) && Fits(g, offsets) && InGrid(g, x) && At(g, x) > ampMin
    requires forall y :: InGrid(g, y) && y != x ==> At(g, y) < At(g, x)
    ensures IsPeak(g, offsets, ampMin, x)
  {
    forall k | 0 <= k < |offsets| && offsets[k] != Offset(0, 0)
      ensures At(g, x) >= MirroredValue(g, x, offsets[k])
    {
      var o := offsets[k];
      var y := Cell(Mirror(x.row, o.dr, |g|), Mirror(x.col, o.dc, Width(g)));
      assert InGrid(g, y) && y != x;
    }
  }

  // ---------------------------------------------------------------------
  // Neighbourhood masks

  /** A boolean neighbourhood mask with rows of equal length. */
  type Mask = seq<seq<bool>>

  predicate OddMask(m: Mask) {
    |m| % 2 == 1 && Width(m) % 2 == 1
  }

  /** Offsets strictly increasing in (row, column) order, as `np.where`
      lists the set entries of a mask. */
  predicate RowMajorSorted(os: seq<Offset>) {
    forall a, b :: 0 <= a < b < |os| ==> RowMajorBefore(os[a], os[b])
  }

  predicate RowMajorBefore(a: Offset, b: Offset) {
    a.dr < b.dr || (a.dr == b.dr && a.dc < b.dc)
  }

  /** The offsets `(dr, c - half)` of the set entries of one mask row, from
      column `j` on. */
  function RowOffsets(row: seq<bool>, dr: int, half: int, j: nat): (os: seq<Offset>)
    requires j <= |row|
    ensures forall k :: 0 <= k < |os| ==>
      os[k].dr == dr && j <= os[k].dc + half < |row| && row[os[k].dc + half]
    ensures forall c :: j <= c < |row| && row[c] ==> Offset(dr, c - half) in os
    ensures forall a, b :: 0 <= a < b < |os| ==> os[a].dc < os[b].dc
    decreases |row| - j
  {
    if j == |row| then []
    else (if row[j] then [Offset(dr, j - half)] else []) + RowOffsets(row, dr, half, j + 1)
  }

  /** The offsets of the set entries of the mask from row `i` on, in
      row-major order, each entry shifted by `(-halfH, -halfW)`. */
  function MaskRows(mask: Mask, halfH: int, halfW: int, i: nat): (os: seq<Offset>)
    requires Rectangular(mask) && i <= |mask|
    ensures ShiftedEntries(mask, halfH, halfW, i, os)
    ensures CoversRows(mask, halfH, halfW, i, os)
    ensures RowMajorSorted(os)
    decreases |mask| - i
  {
    if i == |mask| then []
    else
      var head := RowOffsets(mask[i], i - halfH, halfW, 0);
      var tail := MaskRows(mask, halfH, halfW, i + 1);
      JoinSorted(head, tail, i - halfH);
      JoinRows(mask, halfH, halfW, i, head, tail);
      head + tail
  }

  /** Row `i`'s offsets followed by those of the rows below it name, and
      cover, the set entries from row `i` on. */
  lemma JoinRows(mask: Mask, halfH: int, halfW: int, i: nat, head: seq<Offset>, tail: seq<Offset>)
    requires Rectangular(mask) && i < |mask|
    requires forall k :: 0 <= k < |head| ==>
      head[k].dr == i - halfH && 0 <= head[k].dc + halfW < |mask[i]| && mask[i][head[k].dc + halfW]
    requires forall c :: 0 <= c < |mask[i]| && mask[i][c] ==> Offset(i - halfH, c - halfW) in head
    requires ShiftedEntries(mask, halfH, halfW, i + 1, tail)
    requires CoversRows(mask, halfH, halfW, i + 1, tail)
    ensures ShiftedEntries(mask, halfH, halfW, i, head + tail)
    ensures CoversRows(mask, halfH, halfW, i, head + tail)
  {
    JoinShifted(mask, halfH, halfW, i, head, tail);
    JoinCovers(mask, halfH, halfW, i, head, tail);
  }

  /** Each offset of the joined list names a set entry from row `i` on. */
  lemma JoinShifted(mask: Mask, halfH: int, halfW: int, i: nat, head: seq<Offset>, tail: seq<Offset>)
    requires Rectangular(mask) && i < |mask|
    requires forall k :: 0 <= k < |head| ==>
      head[k].dr == i - halfH && 0 <= head[k].dc + halfW < |mask[i]| && mask[i][head[k].dc + halfW]
    requires ShiftedEntries(mask, halfH, halfW, i + 1, tail)
    ensures ShiftedEntries(mask, halfH, halfW, i, head + tail)
  {
    var os := head + tail;
    forall k | 0 <= k < |os|
      ensures i <= os[k].dr + halfH < |mask| && 0 <= os[k].dc + halfW < Width(mask)
      ensures mask[os[k].dr + halfH][os[k].dc + halfW]
    {
      if k < |head| {
        assert os[k] == head[k];
      } else {
        assert os[k] == tail[k - |head|];
      }
    }
  }

  /** Each set entry from row `i` on is named in the joined list. */
  lemma JoinCovers(mask: Mask, halfH: int, halfW: int, i: nat, head: seq<Offset>, tail: seq<Offset>)
    requires Rectangular(mask) && i < |mask|
    requires forall c :: 0 <= c < |mask[i]| && mask[i][c] ==> Offset(i - halfH, c - halfW) in head
    requires CoversRows(mask, halfH, halfW, i + 1, tail)
    ensures CoversRows(mask, halfH, halfW, i, head + tail)
  {
    forall a, c | i <= a < |mask| && 0 <= c < Width(mask) && mask[a][c]
      ensures Offset(a - halfH, c - halfW) in head + tail
    {
      if a == i {
        assert Offset(i - halfH, c - halfW) in head;
      } else {
        assert Offset(a - halfH, c - halfW) in tail;
      }
    }
  }

  /** One row's offsets, sorted by column, followed by sorted offsets of
      later rows, are sorted. */
  lemma JoinSorted(head: seq<Offset>, tail: seq<Offset>, dr: int)
    requires forall k :: 0 <= k < |head| ==> head[k].dr == dr
    requires forall a, b :: 0 <= a < b < |head| ==> head[a].dc < head[b].dc
    requires forall k :: 0 <= k < |tail| ==> tail[k].dr > dr
    requires RowMajorSorted(tail)
    ensures RowMajorSorted(head + tail)
  {
  }

  /** Every offset, shifted by `(halfH, halfW)`, is a set entry of the mask
      in row `i` or below. */
  predicate ShiftedEntries(mask: Mask, halfH: int, halfW: int, i: nat, os: seq<Offset>)
    requires Rectangular(mask)
  {
    forall k :: 0 <= k < |os| ==>
      && i <= os[k].dr + halfH < |mask|
      && 0 <= os[k].dc + halfW < Width(mask)
      && mask[os[k].dr + halfH][os[k].dc + halfW]
  }

  /** Every set entry of the mask in row `i` or below, shifted by
      `(-halfH, -halfW)`, is among the offsets. */
  predicate CoversRows(mask: Mask, halfH: int, halfW: int, i: nat, os: seq<Offset>)
    requires Rectangular(mask)
  {
    forall a, c :: i <= a < |mask| && 0 <= c < Width(mask) && mask[a][c] ==>
      Offset(a - halfH, c - halfW) in os
  }

  /** Every offset, re-centred on the middle of the mask, is a set entry of
      the mask. */
  predicate NamesSetEntries(mask: Mask, os: seq<Offset>)
    requires Rectangular(mask) && OddMask(mask)
  {
    forall k :: 0 <= k < |os| ==>
      && Abs(os[k].dr) <= |mask| / 2
      && Abs(os[k].dc) <= Width(mask) / 2
      && mask[os[k].dr + |mask| / 2][os[k].dc + Width(mask) / 2]
  }

  /** Every set entry of the mask, centred, is among the offsets. */
  predicate CoversSetEntries(mask: Mask, os: seq<Offset>)
    requires Rectangular(mask)
  {
    CoversRows(mask, |mask| / 2, Width(mask) / 2, 0, os)
  }

  /** `local_peak_locations`' preparation of the mask: the positions of its
      set entries, centred on the middle of the mask, which must have odd
      dimensions. */
  function MaskOffsets(mask: Mask): (r: Result<seq<Offset>, PeakError>)
    requires Rectangular(mask)
    ensures r.Ok? <==> OddMask(mask)
    ensures r.Err? ==> r.error == EvenMask
    ensures r.Ok? ==> NamesSetEntries(mask, r.value) && CoversSetEntries(mask, r.value)
    ensures r.Ok? ==> RowMajorSorted(r.value)
  {
    if OddMask(mask) then
      CentredRows(mask);
      Ok(MaskRows(mask, |mask| / 2, Width(mask) / 2, 0))
    else Err(EvenMask)
  }

  /** Shifting every row of an odd mask by half its size centres it: each
      shifted offset names a set entry, and every set entry is named. */
  lemma CentredRows(mask: Mask)
    requires Rectangular(mask) && OddMask(mask)
    ensures NamesSetEntries(mask, MaskRows(mask, |mask| / 2, Width(mask) / 2, 0))
    ensures CoversSetEntries(mask, MaskRows(mask, |mask| / 2, Width(mask) / 2, 0))
  {
    hide CoversRows;
    CentredRowsInMask(mask, MaskRows(mask, |mask| / 2, Width(mask) / 2, 0));
  }

  /** Offsets that name set entries once shifted by half an odd mask's size
      lie within half its size. */
  lemma CentredRowsInMask(mask: Mask, os: seq<Offset>)
    requires Rectangular(mask) && OddMask(mask)
    requires ShiftedEntries(mask, |mask| / 2, Width(mask) / 2, 0, os)
    ensures NamesSetEntries(mask, os)
  {
    var h, w := |mask| / 2, Width(mask) / 2;
    assert |mask| == 2 * h + 1 && Width(mask) == 2 * w + 1;
  }

  /** The mask is no taller than one more than the grid, and no wider than
      one more than the grid. */
  predicate MaskFitsGrid(g: Grid, mask: Mask) {
    |mask| <= |g| + 1 && Width(mask) <= Width(g) + 1
  }

  /** Mask entry `(a, c)`, if set and not the centre, names a (mirrored)
      neighbour of `x` that is not larger than `x`. */
  predicate EntryNotLarger(g: Grid, mask: Mask, x: Cell, a: int, c: int)
    requires Rectangular(g) && Rectangular(mask) && OddMask(mask) && MaskFitsGrid(g, mask)
    requires InGrid(g, x) && 0 <= a < |mask| && 0 <= c < Width(mask)
  {
    mask[a][c] && !(a == |mask| / 2 && c == Width(mask) / 2) ==>
      At(g, x) >= MirroredValue(g, x, Offset(a - |mask| / 2, c - Width(mask) / 2))
  }

  /** The peak test stated directly on the mask. */
  predicate IsMaskPeak(g: Grid, mask: Mask, ampMin: int, x: Cell)
    requires Rectangular(g) && Rectangular(mask) && OddMask(mask) && MaskFitsGrid(g, mask)
  {
    && InGrid(g, x)
    && At(g, x) > ampMin
    && forall a, c :: 0 <= a < |mask| && 0 <= c < Width(mask) ==> EntryNotLarger(g, mask, x, a, c)
  }

  /** The centred offsets of an odd mask that fits the grid fit the grid. */
  lemma MaskOffsetsFit(g: Grid, mask: Mask)
    requires Rectangular(g) && Rectangular(mask) && OddMask(mask) && MaskFitsGrid(g, mask)
    ensures Fits(g, MaskOffsets(mask).value)
  {
  }

  /** The offset-based peak test agrees with the mask-based one. */
  lemma MaskPeakAgrees(g: Grid, mask: Mask, ampMin: int, x: Cell)
    requires Rectangular(g) && Rectangular(mask) && OddMask(mask) && MaskFitsGrid(g, mask)
    ensures Fits(g, MaskOffsets(mask).value)
    ensures IsPeak(g, MaskOffsets(mask).value, ampMin, x) <==> IsMaskPeak(g, mask, ampMin, x)
  {
    MaskOffsetsFit(g, mask);
    if IsPeak(g, MaskOffsets(mask).value, ampMin, x) {
      PeakIsMaskPeak(g, mask, ampMin, x);
    }
    if IsMaskPeak(g, mask, ampMin, x) {
      MaskPeakIsPeak(g, mask, ampMin, x);
    }
  }

  /** A peak on the mask's offsets is a peak on the mask. */
  lemma PeakIsMaskPeak(g: Grid, mask: Mask, ampMin: int, x: Cell)
    requires Rectangular(g) && Rectangular(mask) && OddMask(mask) && MaskFitsGrid(g, mask)
    requires Fits(g, MaskOffsets(mask).value)
    requires IsPeak(g, MaskOffsets(mask).value, ampMin, x)
    ensures IsMaskPeak(g, mask, ampMin, x)
  {
    DominatesToMask(g, mask, ampMin, x, MaskOffsets(mask).value);
  }

  /** A peak on the mask is a peak on the mask's offsets. */
  lemma MaskPeakIsPeak(g: Grid, mask: Mask, ampMin: int, x: Cell)
    requires Rectangular(g) && Rectangular(mask) && OddMask(mask) && MaskFitsGrid(g, mask)
    requires Fits(g, MaskOffsets(mask).value)
    requires IsMaskPeak(g, mask, ampMin, x)
    ensures IsPeak(g, MaskOffsets(mask).value, ampMin, x)
  {
    hide IsMaskPeak;
    MaskToDominates(g, mask, ampMin, x, MaskOffsets(mask).value);
  }

  /** Offsets that list every set entry of the mask, centred, and dominated
      by `x` make every mask entry not larger than `x`. */
  lemma DominatesToMask(g: Grid, mask: Mask, ampMin: int, x: Cell, os: seq<Offset>)
    requires Rectangular(g) && Rectangular(mask) && OddMask(mask) && MaskFitsGrid(g, mask)
    requires InGrid(g, x) && At(g, x) > ampMin && Fits(g, os)
    requires CoversSetEntries(mask, os)
    requires Dominates(g, os, x)
    ensures IsMaskPeak(g, mask, ampMin, x)
  {
  }

  /** Offsets that each name a set entry of the mask, centred, are all
      dominated by a cell that is a peak on the mask. */
  lemma MaskToDominates(g: Grid, mask: Mask, ampMin: int, x: Cell, os: seq<Offset>)
    requires Rectangular(g) && Rectangular(mask) && OddMask(mask) && MaskFitsGrid(g, mask)
    requires Fits(g, os)
    requires NamesSetEntries(mask, os)
    requires IsMaskPeak(g, mask, ampMin, x)
    ensures IsPeak(g, os, ampMin, x)
  {
    var h, w := |mask| / 2, Width(mask) / 2;
    assert 2 * h + 1 == |mask| && 2 * w + 1 == Width(mask);
    forall k | 0 <= k < |os| && os[k] != Offset(0, 0)
      ensures At(g, x) >= MirroredValue(g, x, os[k])
    {
      var o := os[k];
      var a, c := o.dr + h, o.dc + w;
      assert 0 <= a < |mask| && 0 <= c < Width(mask) && mask[a][c];
      assert EntryNotLarger(g, mask, x, a, c);
      assert Offset(a - h, c - w) == o;
    }
  }

  /** `local_peak_locations`: centre the mask and run the scan. */
  method LocalPeakLocations(g: Grid, mask: Mask, ampMin: int) returns (r: Result<seq<Cell>, PeakError>)
    requires Rectangular(g) && Rectangular(mask)
    ensures r == Err(EvenMask) <==> !OddMask(mask)
    ensures r.Ok? ==> ColumnMajorSorted(r.value)
    ensures r.Ok? ==> forall i :: 0 <= i < |r.value| ==> InGrid(g, r.value[i]) && At(g, r.value[i]) > ampMin
    ensures OddMask(mask) ==>
      (r.Ok? <==> forall x :: InGrid(g, x) ==> !Faults(g, MaskOffsets(mask).value, ampMin, x))
    ensures OddMask(mask) && r.Err? ==>
      && r.error.IndexOutOfRange?
      && InGrid(g, r.error.cell)
      && Faults(g, MaskOffsets(mask).value, ampMin, r.error.cell)
      && forall x :: InGrid(g, x) && ColumnMajorBefore(x, r.error.cell) ==>
           !Faults(g, MaskOffsets(mask).value, ampMin, x)
    ensures r.Ok? ==> OddMask(mask) && forall x :: InGrid(g, x) ==>
      (x in r.value <==> Qualifies(g, MaskOffsets(mask).value, ampMin, x))
    ensures OddMask(mask) && MaskFitsGrid(g, mask) ==>
      r.Ok? && forall x :: x in r.value <==> IsMaskPeak(g, mask, ampMin, x)
  {
    var offsets :- MaskOffsets(mask);
    r := FindPeaks(g, offsets, ampMin);
    if MaskFitsGrid(g, mask) {
      forall x
        ensures IsPeak(g, offsets, ampMin, x) <==> IsMaskPeak(g, mask, ampMin, x)
      {
        MaskPeakAgrees(g, mask, ampMin, x);
      }
    }
  }

}
